=== FILE: README.md ===
# Course Q&A knowledge base: a Dafny model of its storage and retrieval rules

The repository answers questions about a data-science course. Scrapers collect
course pages and forum posts. Two adapters turn them into rows of a DuckDB table
with sentence embeddings. A question is embedded, the nearest row is fetched,
and a chat model answers from it. This project models the pure rules between
those external calls, over abstract inputs:

- **Store** (`db.py`): the `data` table, its destructive rebuild (`prepare_db`),
  the probe `has_data`, inserts into a `FLOAT[dim]` column, and `search_similar`.
  The query is specified as sort by (distance, source priority), take `n`, then
  map each row to `{text, title, url}`.
- **Ranking**: the generic sort-by-key and take (an insertion sort on sequences)
  with its ordering, permutation and top-k lemmas.
- **TdsEmbedding / DiscourseEmbedding** (`embedding/tds.py`,
  `embedding/discourse.py`): corpus rows to store rows. Blank texts are skipped
  and the metadata is built per source.
- **DiscourseScraper** (`scraper/discourse_scraper.py`): the date window, the
  reply counter, and one record per post with its accepted flag and URL.
- **TdsScraper** (`scraper/tds_scraper.py`): heading sections over a flat list
  of sibling nodes, the page-link filter, the crawl-link filter with its
  normalisation and de-duplication, and the visited-set rule of the crawl.
- **Qa** (`qa.py`): links from the entries, the character flattening of the
  texts, the optional image section of the prompt, and the answer wrapper.
- **Pipeline** (`main.py`): the start-up rule that rebuilds a store without data.
- **Text**, **Wrappers**, **Corpus**: Python string operations (`strip` over
  Python's whitespace set, `join`, `split`, `startswith`, `in`, `str(int)`),
  Option/Result, and the shapes of the two corpus files.

Some things are parameters, not code:
- the embedding model: `embed`/`encode: string -> seq<real>`;
- vector distance: `dist: (seq<real>, seq<real>) -> int`;
- what a browser navigation shows: `load`, `reachable`;
- the topic JSON fetch: `fetch`;
- BeautifulSoup's HTML-to-text: `htmlText`;
- the chat completion: `chat`.

Metadata is a tagged union (`TdsMeta` or `DiscourseMeta`), not a JSON bag.
A key that a shape lacks reads as `""`, which is what `metadata.get(key, "")`
does. A JSON `null` url is `None`.

A few facts about the code shape the model:
- `get_answer` returns one link per retrieved entry, in retrieval order. It does
  not renumber citations and raises no error of its own on the model's reply.
- `get_answer` asks `search_similar` for one entry.
- A `DataEntry` holds text, title and url; the distance is not returned.
- No application code checks the embedding width. The only width check is the one
  DuckDB's fixed-size `FLOAT[dim]` column makes, on insert and on the query cast.
  The model shows both as `DimensionMismatch`.

## Model

| member | source | states |
|---|---|---|
| Ranking.SourcePriority | db.py:63-67 | priority is 0 exactly for "tds", 1 exactly for "discourse", 2 for every other source |
| Ranking.Insert | db.py:61-67 | inserting into a key-sorted sequence keeps it sorted and adds exactly that one element |
| Ranking.SortByKey | db.py:61-67 | the result is sorted by (distance, priority) and is a permutation of the input |
| Ranking.TopK | db.py:61-68 | exactly min(n, count) candidates, sorted, drawn from the input, and no candidate left out has a smaller key than any returned |
| Ranking.CourseBeforeForumOnTie | db.py:61-67 | in a sorted result, at equal distance a tds candidate precedes a discourse candidate |
| Ranking.TopKFirstIsLeast | db.py:61-68 | the first returned candidate has a key no larger than any input candidate |
| Ranking.TopKSwapsTwo | db.py:61-68 | two candidates given out of key order come back swapped |
| Store.PrepareDb | db.py:36-41 | after the rebuild the table exists with width dim, holds no data and is well-formed, whatever the store held before |
| Store.PrepareIdempotent | db.py:38-41 | rebuilding twice equals rebuilding once; the store is empty and a query on it returns an empty list, not an error |
| Store.HasDataIffQueryHit | db.py:29-33 | has_data is false on a missing table and true exactly when a one-row query returns a row |
| Store.InsertRow | db.py:40 | an insert succeeds exactly when the table exists and the vector has dim components, and then appends the row |
| Store.InsertAll | embedding/tds.py:23-41 | an empty batch runs no INSERT and succeeds even without a table; a non-empty batch succeeds exactly when the table exists and every vector has the column width, and appends the rows in order; a missing table fails with MissingTable |
| Store.InsertAllWellFormed | db.py:40 | every stored embedding keeps exactly dim components across inserts |
| Store.RebuildThenInsert | db.py:38-41 | a rebuild followed by inserts of right-width rows holds exactly those rows, and has data exactly when there was at least one |
| Store.Retrieve | db.py:57-71 | fails on a missing table or a wrong-width query; otherwise min(n, rows) hits sorted by key, each a stored row with its own key, none left out ranking before one returned |
| Store.EntryOf | db.py:74-82 | text is the stored text; title is course_title for "tds" and topic_title otherwise, "" when the metadata lacks it; url is the metadata url, "" for course rows |
| Store.SearchSimilar | db.py:49-83 | fails exactly when retrieval fails; otherwise min(n, rows) entries, one per retrieved row in retrieval order |
| Store.CourseRowsFirstOnTie | db.py:61-67 | among retrieved rows at equal distance, a tds row is ahead of a discourse row |
| Store.ExactMatchRanksFirst | db.py:59-68 | querying with a stored vector puts first a row at distance 0 whose priority is no worse, given a zero self-distance and non-negative distances |
| Store.EqualDistanceCourseFirst | db.py:61-68 | a forum row and a course row equally close to the query, inserted forum first, come back course first |
| Store.RetrieveEqualDistance | db.py:61-68 | the retrieval under the same scenario yields the course hit before the forum hit |
| TdsEmbedding.BlankIff | embedding/tds.py:24-29 | a section is skipped exactly when its stripped text is empty, which is exactly when its heading and every content item are whitespace only |
| TdsEmbedding.SectionTextSplits | embedding/tds.py:24-27 | the section text splits on newlines back into the heading and the content items (one "" when there is no content) |
| TdsEmbedding.SectionRows | embedding/tds.py:23-41 | a course row gives at most one row per section, each with source "tds", a non-blank text and the embedding of that text |
| TdsEmbedding.TdsRows | embedding/tds.py:17-41 | every row produced has source "tds", a non-blank text and the embedding of that text |
| TdsEmbedding.EmbedTds | embedding/tds.py:9-41 | succeeds exactly when every section is blank (no INSERT runs, so even without a table) or the table exists and every kept section's embedding has the column width; with every section blank the store is unchanged; on success with a table it holds its previous rows followed by exactly the section rows; a missing table otherwise fails with MissingTable |
| TdsEmbedding.TdsRowsEmpty | embedding/tds.py:17-29 | no row is produced exactly when every section of every course row is blank |
| TdsEmbedding.SectionRowsEmpty | embedding/tds.py:23-29 | a course row yields no rows exactly when all its sections are blank |
| TdsEmbedding.TdsRowsCount | embedding/tds.py:17-29 | the number of rows equals the number of non-blank sections over all course rows |
| TdsEmbedding.TdsRowsAppend | embedding/tds.py:17-23 | rows follow course-row order: the rows of a concatenation are the concatenation of the rows |
| TdsEmbedding.NoSectionsNoRows | embedding/tds.py:21-23 | a course row with missing or empty sections contributes no rows |
| TdsEmbedding.RowsAreKeptSections | embedding/tds.py:23-41 | the k-th row of a course row is the row of its k-th non-blank section |
| TdsEmbedding.KeptSectionsMembers | embedding/tds.py:28-29 | a section is kept exactly when it occurs and is not blank |
| TdsEmbedding.SectionRowShape | embedding/tds.py:32-41 | a section row has source "tds", heading-newline-joined-content text and metadata (course title, heading, links); a query shows it with the course title and url "" |
| DiscourseEmbedding.DiscourseRows | embedding/discourse.py:17-37 | at most one row per post, each with source "discourse", a non-blank text and the embedding of that text |
| DiscourseEmbedding.EmbedDiscourse | embedding/discourse.py:9-37 | succeeds exactly when every post is blank (no INSERT runs, so even without a table) or the table exists and every kept post's embedding has the column width; with every post blank the store is unchanged; on success with a table it holds its previous rows followed by exactly the post rows; a missing table otherwise fails with MissingTable |
| DiscourseEmbedding.DiscourseRowsEmpty | embedding/discourse.py:17-21 | no row is produced exactly when every post's content is blank |
| DiscourseEmbedding.RowsAreKeptPosts | embedding/discourse.py:17-37 | the rows are the non-blank posts in input order, one row each |
| DiscourseEmbedding.KeptMembers | embedding/discourse.py:19-21 | a post is kept exactly when it occurs and its content is not blank |
| DiscourseEmbedding.BlankIff | embedding/discourse.py:20 | a post is skipped (its content is whitespace only) exactly when its stripped content is empty |
| DiscourseEmbedding.BlankPostNoRow | embedding/discourse.py:19-21 | a whitespace-only post yields no row |
| DiscourseEmbedding.DiscourseRowsAppend | embedding/discourse.py:17 | rows keep input order across concatenated inputs |
| DiscourseEmbedding.PostRowShape | embedding/discourse.py:24-36 | the row text is the content verbatim; metadata copies topic id, post id, topic title, author and url; like count defaults to 0 and the accepted flag to false; a query shows it with the topic title and the post url |
| DiscourseScraper.ReplyCounter | scraper/discourse_scraper.py:117-122 | a post number is a key exactly when some post replies to it, and maps to the number of such replies |
| DiscourseScraper.AcceptedId | scraper/discourse_scraper.py:113-115 | the accepted id is n exactly when accepted_answer is n, or that key is absent and accepted_answer_post_id is n |
| DiscourseScraper.TopicRecords | scraper/discourse_scraper.py:124-127 | one record per post of the topic, in post order, each carrying the topic's id |
| DiscourseScraper.TopicRecordsFields | scraper/discourse_scraper.py:124-149 | each record carries its post's id and number, the number of replies to it, the reply flag, the accepted flag, the like count (0 when absent), the mentioned users in order, the post URL and the converted content |
| DiscourseScraper.ScrapeCount | scraper/discourse_scraper.py:101-125 | the number of records is the total number of posts of the in-window topics |
| DiscourseScraper.SingleTopic | scraper/discourse_scraper.py:103-104 | a topic contributes all its records when date_from <= created_at <= date_to (both inclusive) and none otherwise |
| DiscourseScraper.ScrapeAppend | scraper/discourse_scraper.py:102-125 | records follow topic order, then post order |
| DiscourseScraper.SourceTopic | scraper/discourse_scraper.py:102-127 | every record was scraped from a listed topic inside the window and carries that topic's id |
| DiscourseScraper.UrlsDistinct | scraper/discourse_scraper.py:144 | two posts of a topic with different post numbers get different URLs |
| TdsScraper.Gather | scraper/tds_scraper.py:72-79 | gathered content items are stripped and non-empty, at most one per sibling |
| TdsScraper.HeadingIndices | scraper/tds_scraper.py:63 | exactly the indices of h1-h4 elements, strictly increasing |
| TdsScraper.Sections | scraper/tds_scraper.py:63-81 | one section per heading index, in document order; section k's heading is the stripped text of the k-th h1-h4 node and its level is that node's tag name |
| TdsScraper.SectionsCount | scraper/tds_scraper.py:63-81 | there are as many sections as h1-h4 headings, including those with empty content |
| TdsScraper.NoHeadingBetween | scraper/tds_scraper.py:63-74 | no heading lies strictly between a heading and the next one |
| TdsScraper.GatherStopsAtHeading | scraper/tds_scraper.py:73-74 | nothing at or after the next heading enters a section's content |
| TdsScraper.GatherAll | scraper/tds_scraper.py:73-79 | with no heading or empty string in the way, every non-blank sibling text is gathered, stripped, in order |
| TdsScraper.SectionContent | scraper/tds_scraper.py:65-81 | with no empty strings in the page, a section's content is exactly the non-blank texts strictly between its heading and the next heading or the end |
| TdsScraper.FindFirst | scraper/tds_scraper.py:58 | the result is an element with that tag, and None only when there is none |
| TdsScraper.CourseTitleFromFirstH1 | scraper/tds_scraper.py:58-60 | the title is the stripped text of the first h1 |
| TdsScraper.CourseTitleFromFirstTitle | scraper/tds_scraper.py:58-60 | without an h1, the title is the stripped text of the first title element |
| TdsScraper.CourseTitleDefault | scraper/tds_scraper.py:46 | without an h1 or title element the course title stays "" |
| TdsScraper.PageLinks | scraper/tds_scraper.py:84-92 | every kept page link starts with "#" or contains "tds.s-anand.net" |
| TdsScraper.PageLinksMembers | scraper/tds_scraper.py:84-92 | a link is kept exactly when some anchor has that href, the href passes the filter, and its text is the anchor's stripped text |
| TdsScraper.ScrapeCourseContent | scraper/tds_scraper.py:37-98 | None exactly when the page could not be loaded; an empty record when the page has no main content area; otherwise the title of the first h1 (or title), one section per h1-h4 heading carrying its stripped text and tag name, and exactly the links some anchor of the main area yields |
| TdsScraper.ScrapesIffHeading | scraper/tds_scraper.py:62-81 | the link loop's keep test (a scraped page with sections) holds exactly when the page loads, has a main area, and that area has an h1-h4 heading |
| TdsScraper.Normalize | scraper/tds_scraper.py:132-137 | an href starting with "#" becomes "https://tds.s-anand.net/" followed by the href; any other (site) href is kept unchanged; either way the result starts with "https://tds.s-anand.net" |
| TdsScraper.NormalizeIdempotent | scraper/tds_scraper.py:132-137 | a normalised href no longer starts with "#", so normalising it again changes nothing |
| TdsScraper.NavCandidates | scraper/tds_scraper.py:128-139 | every candidate href starts with "https://tds.s-anand.net" |
| TdsScraper.NavCandidatesMembers | scraper/tds_scraper.py:128-139 | a pair is a candidate exactly when some anchor has a non-empty href on the site or starting with "#", and the pair is its normalised href and stripped text |
| TdsScraper.Dedup | scraper/tds_scraper.py:127-141 | no duplicates, and the same elements as the input |
| TdsScraper.GetAllLinks | scraper/tds_scraper.py:121-141 | distinct (href, text) pairs, all on the site root, exactly the candidates |
| TdsScraper.InitialInv | scraper/tds_scraper.py:157-161 | the state after scraping the main page satisfies the crawl invariant |
| TdsScraper.StepInv | scraper/tds_scraper.py:169-184 | navigating to an unvisited URL, marking it visited and keeping at most one page for it (only one with sections) keeps the crawl invariant |
| TdsScraper.VisitInv | scraper/tds_scraper.py:168-184 | one loop step keeps the crawl invariant and only appends pages |
| TdsScraper.VisitAllInv | scraper/tds_scraper.py:168-188 | the whole link loop keeps the crawl invariant and only appends pages |
| TdsScraper.CrawlProperties | scraper/tds_scraper.py:147-191 | the link loop visits no href twice and never revisits a scraped main page; page URLs are distinct; the main page comes first when scraped; every other kept page has sections |
| TdsScraper.VisitComplete | scraper/tds_scraper.py:168-184 | one loop step marks its href visited when the navigation succeeds, forgets no visited URL, and keeps a page for the href when its scrape has sections |
| TdsScraper.VisitAllComplete | scraper/tds_scraper.py:168-188 | the link loop visits every href whose navigation succeeds and keeps a page for every visited URL whose scrape has sections |
| TdsScraper.CrawlReachesLinks | scraper/tds_scraper.py:147-191 | every main-page link whose navigation succeeds is visited, and every such link whose page has sections appears among the kept pages (the base URL through the main page) |
| TdsScraper.VisitSound | scraper/tds_scraper.py:168-184 | one loop step over a main-page link visits only that link's href and keeps a page only with that link's href and text |
| TdsScraper.VisitAllSound | scraper/tds_scraper.py:168-188 | the link loop visits only hrefs of the links it is given and keeps pages only under those links' hrefs and texts |
| TdsScraper.CrawlOnlyLinks | scraper/tds_scraper.py:147-191 | every href the link loop visits is the href of a main-page link, and every page besides the main page carries the href and text of a main-page link |
| Qa.FlattenTexts | qa.py:32 | every element is a single character |
| Qa.FlattenTextsJoin | qa.py:32 | joining the flattened texts gives the concatenation of the entry texts, one element per character |
| Qa.ImagePrompt | qa.py:34-41 | the image section is "" exactly when image_text is None or ""; otherwise it contains image_text |
| Qa.GetAnswer | qa.py:26-64 | fails exactly when the store query fails; otherwise at most one link, matching the entries, and the answer is the chat reply unchanged |
| Qa.OneLinkWhenData | qa.py:30-31 | on a store with data and a right-width query vector the answer has exactly one link |
| Qa.LinkIsNearestRow | qa.py:29-31 | on a store with data and a right-width query vector the one link is the title and url of a stored row that no stored row beats on (distance, source priority) |
| Pipeline.StartupRebuilds | main.py:19-22 | a store without data is rebuilt to hold exactly the course rows then the forum rows, all of the declared width |
| Pipeline.StartupKeepsData | main.py:19 | a store with data is left unchanged |
| Pipeline.ScrapedPostReachesStore | embedding/discourse.py:24-36 | a scraped post with content reaches the store with its accepted flag, like count and URL, and a query shows it with the topic title and that URL |
| Text.Strip | embedding/discourse.py:20 | the result starts and ends with a non-whitespace character (or is empty), and is empty exactly when the input is whitespace only |
| Text.StripIsInfix | embedding/discourse.py:20 | the result is what is left of the input after removing an all-whitespace prefix and an all-whitespace suffix |
| Text.SplitJoin | embedding/tds.py:26 | a newline join of non-empty items without newlines splits back into the items |

## Left out

- Browser work is not modelled: Playwright navigation, login and auth-state
  handling, the topic-list pagination loop, and `explore_navigation`. The scrapers'
  inputs are given as values: the topic list, `fetch`, `load` and `reachable`.
- HTML parsing is not modelled. BeautifulSoup's `get_text` on a forum post is
  the parameter `htmlText`. A course page's main content is a flat list of sibling
  nodes, so headings nested inside other elements are not modelled. Both element
  and bare-string nodes are taken to have `get_text`. An empty bare string is false
  in Python, so it ends the sibling walk, as in the source.
- `parse_date` is left out: topic creation times are already-parsed integers, and
  a timestamp that fails both formats is not modelled.
- DuckDB is not modelled: the connection, the extensions, Parquet reads and writes
  (`save_to_parquet`), and the HNSW index. The query is modelled as an exact sort
  and take.
- Store.Retrieve: SQL leaves the order of rows with equal (distance, priority)
  unspecified. The model keeps them in table order (the sort is stable).
- Store.SearchSimilar: `n_results` is a natural number, so a negative LIMIT is not
  modelled. A wrong-width query vector is an error even on an empty table.
- Store.InsertAll: a failing insert stops the batch with an error. The rows already
  inserted before it, which DuckDB keeps, are not returned.
- TdsScraper.ScrapeAllSections: the link loop navigates to an href and
  `scrape_course_content` navigates to it again; the model counts one visit per
  loop step. `reachable` is a fixed function of the href, so an href whose
  navigation failed (and that stays unvisited) fails again on every later pair
  with that href, whereas the browser might succeed on a retry.
- Float arithmetic in `array_distance` and the sentence-transformer model are
  uninterpreted parameters. Distance is an integer, so there is no NaN.
- JSON encoding of metadata is left out: it is a tagged union.
- Qa.GetAnswer: the OpenAI client, the fixed system prompt, and the rendering of
  `texts` inside the user prompt (Python's list repr) are not modelled. The request
  is kept as its parts (texts, image section, question). Pydantic validation of the
  reply (a None content) is not modelled.
- `main.py:63` passes `max_sources=10`, but `get_answer` has no such parameter. The
  model uses the fixed retrieval count 1 from `qa.py:30`.
- The FastAPI routes, base64 image validation, `kostionapi.py` and `config.py` are
  HTTP and configuration plumbing, not part of this model.
- DiscourseScraper.TopicRecords: the topic title is a string. A topic without a
  title (a None that would later fail the link's `str` type) is not modelled.
  Null values of `like_count` and `mentioned_users` are treated like absent keys.
- TdsScraper.GetAllLinks: the source returns `list(set(...))`, whose order is
  unspecified. The model keeps first occurrences in page order. Exceptions from the
  browser, which make it return [], are not modelled.
- TdsScraper.MainAnchors: when the main page fails to load, the browser is taken to
  show no anchors.
- The parquet round trip of crawled course pages into course rows is not modelled.
  The forum round trip is modelled: `ToPostRow` keeps every column the forum adapter reads.

=== FILE: Corpus.dfy ===
/** The record shapes of the two corpus files the scrapers write and the
    embedding adapters read back (one parquet row each). */
module Corpus {
  import opened Wrappers

  /** A course-site link: its visible text and its href. */
  datatype TdsLink = TdsLink(text: string, href: string)

  /** One heading of a course page with the text blocks that follow it. */
  datatype TdsSection = TdsSection(heading: string, level: string, content: seq<string>)

  /** A course-page row as the course adapter reads it; `links` and
      `sections` are None when the file has no such column. */
  datatype CourseRow = CourseRow(
    courseTitle: string,
    links: Option<seq<TdsLink>>,
    sections: Option<seq<TdsSection>>)

  /** A forum-post row as the forum adapter reads it; the optional columns
      are None when the file has no such column. */
  datatype PostRow = PostRow(
    topicId: int,
    postId: int,
    topicTitle: string,
    author: string,
    likeCount: Option<int>,
    isAcceptedAnswer: Option<bool>,
    url: Option<string>,
    content: string)
}

=== FILE: DiscourseEmbedding.dfy ===
/** The forum adapter (`embed_discourse`): one store row per post whose
    content is not blank, in input order. */
module DiscourseEmbedding {
  import opened Wrappers
  import opened Text
  import opened Corpus
  import Store

  /** A post is skipped when its content is empty after `strip()`, that is,
      when the content is whitespace only (`Text.Strip` states the equivalence). */
  predicate Blank(p: PostRow) {
    AllSpace(p.content)
  }

  /** The metadata of a post; absent like count and accepted flag read as 0 and false. */
  function PostMetadata(p: PostRow): Store.Metadata {
    Store.DiscourseMeta(
      p.topicId, p.postId, p.topicTitle, p.author,
      p.likeCount.GetOr(0), p.isAcceptedAnswer.GetOr(false), p.url)
  }

  /** The store row of a post: its content verbatim, untrimmed. */
  function PostRowToStore(p: PostRow, embed: string -> Store.Vector): Store.Row {
    Store.Row("discourse", p.content, PostMetadata(p), embed(p.content))
  }

  /** All rows `embed_discourse` inserts for the posts `ps`. */
  function DiscourseRows(ps: seq<PostRow>, embed: string -> Store.Vector): (r: seq<Store.Row>)
    ensures |r| <= |ps|
    ensures forall k :: 0 <= k < |r| ==> r[k].source == "discourse" && !AllSpace(r[k].text) && r[k].embedding == embed(r[k].text)
    decreases |ps|
  {
    if |ps| == 0 then []
    else (if Blank(ps[0]) then [] else [PostRowToStore(ps[0], embed)]) + DiscourseRows(ps[1..], embed)
  }

  /** `embed_discourse`: insert every row of `DiscourseRows` into the store.
      With only blank posts no `INSERT` runs, so it succeeds even without a
      table; otherwise it needs the table and every embedding at its width. */
  function EmbedDiscourse(db: Store.Db, ps: seq<PostRow>, embed: string -> Store.Vector)
    : (r: Result<Store.Db, Store.StoreError>)
    ensures r.Ok? <==>
      (forall k :: 0 <= k < |ps| ==> Blank(ps[k])) ||
      (db.data.Some? && forall k :: 0 <= k < |DiscourseRows(ps, embed)| ==> |embed(DiscourseRows(ps, embed)[k].text)| == db.data.value.dim)
    ensures (forall k :: 0 <= k < |ps| ==> Blank(ps[k])) ==> r == Ok(db)
    ensures r.Ok? && db.data.Some? ==>
      r.value.data == Some(Store.Table(db.data.value.dim, db.data.value.rows + DiscourseRows(ps, embed)))
    ensures r.Err? && db.data.None? ==> r.error == Store.MissingTable
  {
    DiscourseRowsEmpty(ps, embed);
    Store.InsertAll(db, DiscourseRows(ps, embed))
  }

  /** `embed_discourse` inserts nothing exactly when every post is blank. */
  lemma {:induction false} DiscourseRowsEmpty(ps: seq<PostRow>, embed: string -> Store.Vector)
    ensures |DiscourseRows(ps, embed)| == 0 <==> forall k :: 0 <= k < |ps| ==> Blank(ps[k])
    decreases |ps|
  {
    if |ps| > 0 {
      DiscourseRowsEmpty(ps[1..], embed);
      assert forall k :: 1 <= k < |ps| ==> ps[k] == ps[1..][k - 1];
    }
  }

  /** The posts that are kept, in order (reference definition). */
  function Kept(ps: seq<PostRow>): (r: seq<PostRow>)
    decreases |ps|
  {
    if |ps| == 0 then [] else (if Blank(ps[0]) then [] else [ps[0]]) + Kept(ps[1..])
  }

  /** The rows are exactly the kept posts, each mapped to its row, in order. */
  lemma {:induction false} RowsAreKeptPosts(ps: seq<PostRow>, embed: string -> Store.Vector)
    ensures |DiscourseRows(ps, embed)| == |Kept(ps)|
    ensures forall k :: 0 <= k < |Kept(ps)| ==> DiscourseRows(ps, embed)[k] == PostRowToStore(Kept(ps)[k], embed)
    decreases |ps|
  {
    if |ps| > 0 {
      RowsAreKeptPosts(ps[1..], embed);
      var rest, kept := DiscourseRows(ps[1..], embed), Kept(ps[1..]);
      if Blank(ps[0]) {
        assert DiscourseRows(ps, embed) == rest && Kept(ps) == kept;
      } else {
        assert DiscourseRows(ps, embed) == [PostRowToStore(ps[0], embed)] + rest;
        assert Kept(ps) == [ps[0]] + kept;
      }
    }
  }

  /** A post is kept exactly when its content has a non-whitespace character. */
  lemma {:induction false} KeptMembers(ps: seq<PostRow>, p: PostRow)
    ensures p in Kept(ps) <==> p in ps && !Blank(p)
    decreases |ps|
  {
    if |ps| > 0 {
      KeptMembers(ps[1..], p);
      assert p in ps <==> p == ps[0] || p in ps[1..];
    }
  }

  /** Blank means the stripped content is empty. */
  lemma BlankIff(p: PostRow)
    ensures Blank(p) <==> |Strip(p.content)| == 0
  {
  }

  /** A whitespace-only post yields no row. */
  lemma BlankPostNoRow(p: PostRow, embed: string -> Store.Vector)
    requires AllSpace(p.content)
    ensures DiscourseRows([p], embed) == []
  {
  }

  /** Rows keep input order across a concatenation of inputs. */
  lemma {:induction false} DiscourseRowsAppend(a: seq<PostRow>, b: seq<PostRow>, embed: string -> Store.Vector)
    ensures DiscourseRows(a + b, embed) == DiscourseRows(a, embed) + DiscourseRows(b, embed)
    decreases |a|
  {
    if |a| == 0 {
      assert a + b == b;
    } else {
      var head := if Blank(a[0]) then [] else [PostRowToStore(a[0], embed)];
      var ab := a + b;
      assert ab[0] == a[0] && ab[1..] == a[1..] + b;
      calc {
        DiscourseRows(ab, embed);
        head + DiscourseRows(a[1..] + b, embed);
        { DiscourseRowsAppend(a[1..], b, embed); }
        head + (DiscourseRows(a[1..], embed) + DiscourseRows(b, embed));
        (head + DiscourseRows(a[1..], embed)) + DiscourseRows(b, embed);
        DiscourseRows(a, embed) + DiscourseRows(b, embed);
      }
    }
  }

  /** The row of a post copies the post's fields into its metadata with the
      defaults applied, and a query shows it with the topic title and the
      post url. */
  lemma PostRowShape(p: PostRow, embed: string -> Store.Vector)
    ensures var row := PostRowToStore(p, embed);
      && row.source == "discourse"
      && row.text == p.content
      && row.metadata.topicId == p.topicId && row.metadata.postId == p.postId
      && row.metadata.topicTitle == p.topicTitle && row.metadata.author == p.author
      && row.metadata.url == p.url
      && (p.likeCount.None? ==> row.metadata.likeCount == 0)
      && (p.isAcceptedAnswer.None? ==> !row.metadata.isAcceptedAnswer)
      && Store.EntryOf(row) == Store.DataEntry(p.content, p.topicTitle, p.url)
  {
  }
}

=== FILE: DiscourseScraper.dfy ===
/** The record derivation of the forum scraper (`scrape_posts`, from the
    topic list onward): the creation-date window, the per-topic reply
    counter, and one flat record per post. Fetching is a parameter. */
module DiscourseScraper {
  import opened Wrappers
  import opened Text
  import Corpus
  import Seqs

  /** A topic from the category listing; `createdAt` is its parsed creation time. */
  datatype Topic = Topic(
    id: int,
    slug: string,
    title: string,
    categoryId: Option<int>,
    tags: Option<seq<string>>,
    createdAt: int)

  /** A JSON value where an identifier is expected: null, an integer, or
      anything else (which never equals a post id). */
  datatype IdValue = Null | Id(n: int) | NonId

  /** A post of a topic's post stream; None is an absent (or null) key. */
  datatype Post = Post(
    id: int,
    postNumber: int,
    username: string,
    createdAt: string,
    updatedAt: Option<string>,
    replyTo: Option<int>,
    likeCount: Option<int>,
    mentionedUsers: Option<seq<string>>,
    cooked: string)

  /** A topic's JSON: its posts (None when `post_stream` or `posts` is
      absent) and the two accepted-answer keys (None when absent). */
  datatype TopicData = TopicData(
    posts: Option<seq<Post>>,
    acceptedAnswer: Option<IdValue>,
    acceptedAnswerPostId: Option<IdValue>)

  /** The scraper's settings: site base URL and the inclusive date window. */
  datatype Config = Config(baseUrl: string, dateFrom: int, dateTo: int)

  /** One output record per post. */
  datatype PostRecord = PostRecord(
    topicId: int,
    topicTitle: string,
    categoryId: Option<int>,
    tags: seq<string>,
    postId: int,
    postNumber: int,
    author: string,
    createdAt: string,
    updatedAt: Option<string>,
    replyToPostNumber: Option<int>,
    isReply: bool,
    replyCount: nat,
    likeCount: int,
    isAcceptedAnswer: bool,
    mentionedUsers: seq<string>,
    url: string,
    content: string)

  /** A topic is scraped when its creation time lies in the window, both ends included. */
  predicate InWindow(cfg: Config, t: Topic) {
    cfg.dateFrom <= t.createdAt <= cfg.dateTo
  }

  /** Number of posts among `ps` that reply to post number `k` (reference count). */
  function CountReplies(ps: seq<Post>, k: int): nat
    decreases |ps|
  {
    if |ps| == 0 then 0
    else CountReplies(ps[..|ps| - 1], k) + (if ps[|ps| - 1].replyTo == Some(k) then 1 else 0)
  }

  /** The reply counter built by one pass over the posts: a post number is
      a key exactly when some post replies to it, and maps to how many do. */
  function ReplyCounter(ps: seq<Post>): (m: map<int, nat>)
    ensures forall k :: k in m <==> CountReplies(ps, k) > 0
    ensures forall k :: k in m ==> m[k] == CountReplies(ps, k)
    decreases |ps|
  {
    if |ps| == 0 then map[]
    else
      var m := ReplyCounter(ps[..|ps| - 1]);
      match ps[|ps| - 1].replyTo
      case None => m
      case Some(k) => m[k := (if k in m then m[k] else 0) + 1]
  }

  /** The accepted-answer id: `accepted_answer` when that key is present
      (even if null), otherwise `accepted_answer_post_id`, otherwise null. */
  function AcceptedId(d: TopicData): (r: IdValue)
    ensures forall n :: r == Id(n) <==>
      d.acceptedAnswer == Some(Id(n)) || (d.acceptedAnswer.None? && d.acceptedAnswerPostId == Some(Id(n)))
  {
    match d.acceptedAnswer
    case Some(v) => v
    case None => d.acceptedAnswerPostId.GetOr(Null)
  }

  /** The canonical URL of a post. */
  function PostUrl(cfg: Config, t: Topic, p: Post): string {
    cfg.baseUrl + "/t/" + t.slug + "/" + IntToString(t.id) + "/" + IntToString(p.postNumber)
  }

  /** The record of post `p` of topic `t`, given the topic's reply counter
      and the HTML-to-text conversion of the post body. */
  function RecordOf(cfg: Config, t: Topic, d: TopicData, counter: map<int, nat>, p: Post,
                    htmlText: string -> string): PostRecord
  {
    PostRecord(
      t.id, t.title, t.categoryId, t.tags.GetOr([]),
      p.id, p.postNumber, p.username, p.createdAt, p.updatedAt,
      p.replyTo, p.replyTo.Some?,
      if p.postNumber in counter then counter[p.postNumber] else 0,
      p.likeCount.GetOr(0),
      AcceptedId(d) == Id(p.id),
      p.mentionedUsers.GetOr([]),
      PostUrl(cfg, t, p),
      htmlText(p.cooked))
  }

  /** The records of the posts `ps` of topic `t`, in order. */
  function RecordsOf(cfg: Config, t: Topic, d: TopicData, counter: map<int, nat>, ps: seq<Post>,
                     htmlText: string -> string): (r: seq<PostRecord>)
    ensures |r| == |ps|
    ensures forall i :: 0 <= i < |r| ==> r[i] == RecordOf(cfg, t, d, counter, ps[i], htmlText)
    decreases |ps|
  {
    if |ps| == 0 then [] else [RecordOf(cfg, t, d, counter, ps[0], htmlText)] + RecordsOf(cfg, t, d, counter, ps[1..], htmlText)
  }

  /** The posts of a topic's JSON; a missing stream reads as none. */
  function PostsOf(d: TopicData): seq<Post> {
    d.posts.GetOr([])
  }

  /** The records of one fetched topic, one per post, in post order. */
  function TopicRecords(cfg: Config, t: Topic, d: TopicData, htmlText: string -> string): (r: seq<PostRecord>)
    ensures |r| == |PostsOf(d)|
    ensures forall i :: 0 <= i < |r| ==> r[i].topicId == t.id
  {
    RecordsOf(cfg, t, d, ReplyCounter(PostsOf(d)), PostsOf(d), htmlText)
  }

  /** Each record of a topic carries its post's id and number, the number of
      replies to it, whether it is a reply, whether it is the accepted
      answer, its like count (0 when absent), its mentioned users in order,
      its URL and its converted content. */
  lemma TopicRecordsFields(cfg: Config, t: Topic, d: TopicData, htmlText: string -> string)
    ensures forall i :: 0 <= i < |TopicRecords(cfg, t, d, htmlText)| ==>
      var r, p := TopicRecords(cfg, t, d, htmlText)[i], PostsOf(d)[i];
      && r.postId == p.id && r.postNumber == p.postNumber
      && r.replyCount == CountReplies(PostsOf(d), p.postNumber)
      && (r.isReply <==> p.replyTo.Some?)
      && (r.isAcceptedAnswer <==>
            d.acceptedAnswer == Some(Id(p.id)) || (d.acceptedAnswer.None? && d.acceptedAnswerPostId == Some(Id(p.id))))
      && r.likeCount == p.likeCount.GetOr(0)
      && r.mentionedUsers == p.mentionedUsers.GetOr([])
      && r.url == PostUrl(cfg, t, p)
      && r.content == htmlText(p.cooked)
  {
  }

  /** What one listed topic contributes: its records when it is in the window, nothing otherwise. */
  function TopicPart(cfg: Config, t: Topic, fetch: Topic -> TopicData, htmlText: string -> string): (r: seq<PostRecord>)
    ensures InWindow(cfg, t) ==> r == TopicRecords(cfg, t, fetch(t), htmlText)
    ensures !InWindow(cfg, t) ==> r == []
    ensures forall i :: 0 <= i < |r| ==> r[i].topicId == t.id
  {
    if InWindow(cfg, t) then TopicRecords(cfg, t, fetch(t), htmlText) else []
  }

  /** `TopicPart` as a function of the topic alone. */
  function PerTopic(cfg: Config, fetch: Topic -> TopicData, htmlText: string -> string): Topic -> seq<PostRecord> {
    t => TopicPart(cfg, t, fetch, htmlText)
  }

  /** The contributions of the listed topics, one per topic, in listing order. */
  function TopicParts(cfg: Config, topics: seq<Topic>, fetch: Topic -> TopicData,
                      htmlText: string -> string): (r: seq<seq<PostRecord>>)
    ensures |r| == |topics|
    ensures forall j :: 0 <= j < |r| ==> r[j] == TopicPart(cfg, topics[j], fetch, htmlText)
  {
    Seqs.Map(PerTopic(cfg, fetch, htmlText), topics)
  }

  /** `scrape_posts` after pagination: topics in the window are fetched and
      flattened into post records, topic order then post order. */
  function ScrapePosts(cfg: Config, topics: seq<Topic>, fetch: Topic -> TopicData,
                       htmlText: string -> string): seq<PostRecord>
  {
    Seqs.Flatten(TopicParts(cfg, topics, fetch, htmlText))
  }

  /** Total number of posts of the topics in the window (reference count). */
  function WindowPostCount(cfg: Config, topics: seq<Topic>, fetch: Topic -> TopicData): nat
    decreases |topics|
  {
    if |topics| == 0 then 0
    else
      var here := if InWindow(cfg, topics[0]) then |PostsOf(fetch(topics[0]))| else 0;
      here + WindowPostCount(cfg, topics[1..], fetch)
  }

  /** No post of an in-window topic is dropped and none outside is added. */
  lemma ScrapeCount(cfg: Config, topics: seq<Topic>, fetch: Topic -> TopicData, htmlText: string -> string)
    ensures |ScrapePosts(cfg, topics, fetch, htmlText)| == WindowPostCount(cfg, topics, fetch)
  {
    Seqs.FlattenLength(TopicParts(cfg, topics, fetch, htmlText));
    PartsLength(cfg, topics, fetch, htmlText);
  }

  lemma {:induction false} PartsLength(cfg: Config, topics: seq<Topic>, fetch: Topic -> TopicData,
                                       htmlText: string -> string)
    ensures Seqs.TotalLength(TopicParts(cfg, topics, fetch, htmlText)) == WindowPostCount(cfg, topics, fetch)
    decreases |topics|
  {
    if |topics| > 0 {
      var parts := TopicParts(cfg, topics, fetch, htmlText);
      assert parts[1..] == TopicParts(cfg, topics[1..], fetch, htmlText);
      PartsLength(cfg, topics[1..], fetch, htmlText);
    }
  }

  /** One topic contributes all of its posts when it is in the window and nothing otherwise. */
  lemma SingleTopic(cfg: Config, t: Topic, fetch: Topic -> TopicData, htmlText: string -> string)
    ensures InWindow(cfg, t) ==> ScrapePosts(cfg, [t], fetch, htmlText) == TopicRecords(cfg, t, fetch(t), htmlText)
    ensures !InWindow(cfg, t) ==> ScrapePosts(cfg, [t], fetch, htmlText) == []
  {
    var parts := TopicParts(cfg, [t], fetch, htmlText);
    assert parts[1..] == [];
    assert Seqs.Flatten(parts) == parts[0] + [];
  }

  /** Records keep topic order across a concatenation of topic lists. */
  lemma ScrapeAppend(cfg: Config, a: seq<Topic>, b: seq<Topic>, fetch: Topic -> TopicData,
                     htmlText: string -> string)
    ensures ScrapePosts(cfg, a + b, fetch, htmlText) == ScrapePosts(cfg, a, fetch, htmlText) + ScrapePosts(cfg, b, fetch, htmlText)
  {
    Seqs.MapAppend(PerTopic(cfg, fetch, htmlText), a, b);
    Seqs.FlattenAppend(TopicParts(cfg, a, fetch, htmlText), TopicParts(cfg, b, fetch, htmlText));
  }

  /** Every record comes from an in-window topic: the index of the topic
      that record `k` was scraped from. */
  function SourceTopic(cfg: Config, topics: seq<Topic>, fetch: Topic -> TopicData,
                       htmlText: string -> string, k: nat): (j: nat)
    requires k < |ScrapePosts(cfg, topics, fetch, htmlText)|
    ensures j < |topics| && InWindow(cfg, topics[j])
    ensures ScrapePosts(cfg, topics, fetch, htmlText)[k].topicId == topics[j].id
  {
    var parts := TopicParts(cfg, topics, fetch, htmlText);
    var j := Seqs.PartOf(parts, k);
    var part := parts[j];
    assert part == TopicPart(cfg, topics[j], fetch, htmlText);
    var i :| 0 <= i < |part| && part[i] == ScrapePosts(cfg, topics, fetch, htmlText)[k];
    j
  }

  /** Within a topic, posts with different numbers get different URLs. */
  lemma UrlsDistinct(cfg: Config, t: Topic, p: Post, p': Post)
    requires p.postNumber != p'.postNumber
    ensures PostUrl(cfg, t, p) != PostUrl(cfg, t, p')
  {
    var prefix := cfg.baseUrl + "/t/" + t.slug + "/" + IntToString(t.id) + "/";
    assert PostUrl(cfg, t, p) == prefix + IntToString(p.postNumber);
    assert PostUrl(cfg, t, p') == prefix + IntToString(p'.postNumber);
    if PostUrl(cfg, t, p) == PostUrl(cfg, t, p') {
      assert IntToString(p.postNumber) == PostUrl(cfg, t, p)[|prefix|..];
      IntToStringInjective(p.postNumber, p'.postNumber);
    }
  }

  /** The record of a scraped post, as the forum adapter reads it back from
      the corpus file. */
  function ToPostRow(r: PostRecord): Corpus.PostRow {
    Corpus.PostRow(r.topicId, r.postId, r.topicTitle, r.author, Some(r.likeCount),
                   Some(r.isAcceptedAnswer), Some(r.url), r.content)
  }
}

=== FILE: Pipeline.dfy ===
/** How the pieces are wired at start-up: an empty or missing store is
    rebuilt and filled from both corpora; a store with data is left alone.
    Also the hand-over from the forum scraper's records to the forum adapter. */
module Pipeline {
  import opened Wrappers
  import Store
  import Corpus
  import TdsEmbedding
  import DiscourseEmbedding
  import DiscourseScraper

  /** The start-up step: when the store has no data, rebuild it with vector
      width `dim`, then embed the course rows, then the forum posts. */
  function Startup(db: Store.Db, dim: nat, courses: seq<Corpus.CourseRow>, posts: seq<Corpus.PostRow>,
                   embed: string -> Store.Vector): Result<Store.Db, Store.StoreError>
  {
    if Store.HasData(db) then Ok(db)
    else
      match TdsEmbedding.EmbedTds(Store.PrepareDb(db, dim), courses, embed)
      case Err(e) => Err(e)
      case Ok(db') => DiscourseEmbedding.EmbedDiscourse(db', posts, embed)
  }

  /** With an embedding model of width `dim`, a store without data ends up
      holding exactly the course rows followed by the forum rows, each with
      a vector of the declared width. */
  lemma StartupRebuilds(db: Store.Db, dim: nat, courses: seq<Corpus.CourseRow>, posts: seq<Corpus.PostRow>,
                        embed: string -> Store.Vector)
    requires !Store.HasData(db)
    requires forall t :: |embed(t)| == dim
    ensures Startup(db, dim, courses, posts, embed)
         == Ok(Store.Db(Some(Store.Table(dim, TdsEmbedding.TdsRows(courses, embed)
                                              + DiscourseEmbedding.DiscourseRows(posts, embed)))))
    ensures Store.WellFormed(Startup(db, dim, courses, posts, embed).value)
  {
    var tds := TdsEmbedding.TdsRows(courses, embed);
    var forum := DiscourseEmbedding.DiscourseRows(posts, embed);
    Store.RebuildThenInsert(db, dim, tds);
    var db1 := Store.Db(Some(Store.Table(dim, tds)));
    assert TdsEmbedding.EmbedTds(Store.PrepareDb(db, dim), courses, embed) == Ok(db1);
    assert Store.InsertAll(db1, forum).Ok?;
    Store.InsertAllWellFormed(db1, forum);
  }

  /** A store that already has data is not rebuilt. */
  lemma StartupKeepsData(db: Store.Db, dim: nat, courses: seq<Corpus.CourseRow>, posts: seq<Corpus.PostRow>,
                         embed: string -> Store.Vector)
    requires Store.HasData(db)
    ensures Startup(db, dim, courses, posts, embed) == Ok(db)
  {
  }

  /** A scraped forum post with content keeps its accepted-answer flag, like
      count and canonical URL through the corpus file into the store, and a
      query shows it under its topic title and that URL. */
  lemma ScrapedPostReachesStore(r: DiscourseScraper.PostRecord, embed: string -> Store.Vector)
    requires !DiscourseEmbedding.Blank(DiscourseScraper.ToPostRow(r))
    ensures var rows := DiscourseEmbedding.DiscourseRows([DiscourseScraper.ToPostRow(r)], embed);
      && |rows| == 1
      && rows[0].metadata.isAcceptedAnswer == r.isAcceptedAnswer
      && rows[0].metadata.likeCount == r.likeCount
      && Store.EntryOf(rows[0]) == Store.DataEntry(r.content, r.topicTitle, Some(r.url))
  {
  }
}

=== FILE: Qa.dfy ===
/** The pure part of `get_answer`: retrieve evidence for the question, turn
    it into source links and prompt texts, add the optional image section,
    and wrap the language model's reply. Encoding and the chat completion
    are parameters. */
module Qa {
  import opened Wrappers
  import opened Text
  import Store
  import Ranking

  /** A cited source: the entry's title and url. */
  datatype Link = Link(text: string, url: Option<string>)

  /** The response: the model's reply and the source links. */
  datatype Answer = Answer(answer: string, links: seq<Link>)

  /** What is sent to the chat model besides the fixed instructions. */
  datatype ChatRequest = ChatRequest(texts: seq<string>, imagePrompt: string, query: string)

  /** `get_answer` asks the store for this many entries. */
  const EvidenceCount: nat := 1

  const ImageIntro := "\n        Given the text reading from attached image:\n        "
  const ImageOutro := "\n        "

  /** One link per entry, in entry order. */
  function LinksOf(entries: seq<Store.DataEntry>): (r: seq<Link>)
    ensures |r| == |entries|
    ensures forall i :: 0 <= i < |r| ==> r[i] == Link(entries[i].title, entries[i].url)
  {
    seq(|entries|, i requires 0 <= i < |entries| => Link(entries[i].title, entries[i].url))
  }

  /** The characters of `s`, each as a one-character string. */
  function Chars(s: string): (r: seq<string>)
    ensures |r| == |s|
    ensures forall i :: 0 <= i < |r| ==> r[i] == [s[i]]
  {
    seq(|s|, i requires 0 <= i < |s| => [s[i]])
  }

  /** `list(chain(*texts))`: the entry texts flattened into single characters. */
  function FlattenTexts(entries: seq<Store.DataEntry>): (r: seq<string>)
    ensures forall i :: 0 <= i < |r| ==> |r[i]| == 1
    decreases |entries|
  {
    if |entries| == 0 then [] else Chars(entries[0].text) + FlattenTexts(entries[1..])
  }

  /** The texts of the entries, in order. */
  function Texts(entries: seq<Store.DataEntry>): (r: seq<string>)
    ensures |r| == |entries|
    ensures forall i :: 0 <= i < |r| ==> r[i] == entries[i].text
  {
    seq(|entries|, i requires 0 <= i < |entries| => entries[i].text)
  }

  /** Joining a string's characters gives the string back. */
  lemma {:induction false} ConcatChars(s: string)
    ensures Concat(Chars(s)) == s
    decreases |s|
  {
    if |s| > 0 {
      ConcatChars(s[1..]);
      assert Chars(s)[1..] == Chars(s[1..]);
      assert [s[0]] + s[1..] == s;
    }
  }

  lemma {:induction false} ConcatAppend(a: seq<string>, b: seq<string>)
    ensures Concat(a + b) == Concat(a) + Concat(b)
    decreases |a|
  {
    if |a| == 0 {
      assert a + b == b;
    } else {
      assert (a + b)[1..] == a[1..] + b;
      ConcatAppend(a[1..], b);
    }
  }

  /** Joining the flattened texts gives the concatenation of the entry texts. */
  lemma {:induction false} FlattenTextsJoin(entries: seq<Store.DataEntry>)
    ensures Concat(FlattenTexts(entries)) == Concat(Texts(entries))
    ensures |FlattenTexts(entries)| == |Concat(Texts(entries))|
    decreases |entries|
  {
    if |entries| > 0 {
      FlattenTextsJoin(entries[1..]);
      assert Texts(entries)[1..] == Texts(entries[1..]);
      ConcatAppend(Chars(entries[0].text), FlattenTexts(entries[1..]));
      ConcatChars(entries[0].text);
    }
  }

  /** The image section of the prompt: empty when there is no image text
      (None or ""), otherwise the image text between fixed framing lines. */
  function ImagePrompt(imageText: Option<string>): (r: string)
    ensures r == "" <==> imageText.None? || imageText.value == ""
    ensures imageText.Some? && imageText.value != "" ==> Contains(r, imageText.value)
  {
    match imageText
    case Some(t) =>
      if t == "" then ""
      else
        ContainsInfix(ImageIntro, t, ImageOutro);
        ImageIntro + t + ImageOutro
    case None => ""
  }

  /** `get_answer`: fails as the store query fails; otherwise the reply of
      the chat model, unchanged, with one link per retrieved entry. */
  function GetAnswer(db: Store.Db, query: string, imageText: Option<string>,
                     encode: string -> Store.Vector, dist: (Store.Vector, Store.Vector) -> int,
                     chat: ChatRequest -> string): (r: Result<Answer, Store.StoreError>)
    ensures r.Ok? <==> Store.SearchSimilar(db, encode(query), EvidenceCount, dist).Ok?
    ensures r.Ok? ==>
      var entries := Store.SearchSimilar(db, encode(query), EvidenceCount, dist).value;
      && |r.value.links| == |entries| <= 1
      && (forall i :: 0 <= i < |entries| ==>
            r.value.links[i].text == entries[i].title && r.value.links[i].url == entries[i].url)
      && r.value.answer == chat(ChatRequest(FlattenTexts(entries), ImagePrompt(imageText), query))
  {
    match Store.SearchSimilar(db, encode(query), EvidenceCount, dist)
    case Err(e) => Err(e)
    case Ok(entries) =>
      var request := ChatRequest(FlattenTexts(entries), ImagePrompt(imageText), query);
      Ok(Answer(chat(request), LinksOf(entries)))
  }

  /** On a store with data and a query vector of the right width there is exactly one link. */
  lemma OneLinkWhenData(db: Store.Db, query: string, imageText: Option<string>,
                        encode: string -> Store.Vector, dist: (Store.Vector, Store.Vector) -> int,
                        chat: ChatRequest -> string)
    requires Store.HasData(db) && |encode(query)| == db.data.value.dim
    ensures GetAnswer(db, query, imageText, encode, dist, chat).Ok?
    ensures |GetAnswer(db, query, imageText, encode, dist, chat).value.links| == 1
  {
  }

  /** On a store with data and a query vector of the right width, the one
      link is the title and url of a stored row that no other stored row
      beats on (distance, source priority). */
  lemma LinkIsNearestRow(db: Store.Db, query: string, imageText: Option<string>,
                         encode: string -> Store.Vector, dist: (Store.Vector, Store.Vector) -> int,
                         chat: ChatRequest -> string)
    requires Store.HasData(db) && |encode(query)| == db.data.value.dim
    ensures GetAnswer(db, query, imageText, encode, dist, chat).Ok?
    ensures var links := GetAnswer(db, query, imageText, encode, dist, chat).value.links;
      var rows, q := db.data.value.rows, encode(query);
      && |links| == 1
      && exists k :: 0 <= k < |rows|
           && links[0] == Link(Store.EntryOf(rows[k]).title, Store.EntryOf(rows[k]).url)
           && forall j :: 0 <= j < |rows| ==> Ranking.KeyLe(Store.KeyOf(rows[k], q, dist), Store.KeyOf(rows[j], q, dist))
  {
    var rows, q := db.data.value.rows, encode(query);
    var scored := Store.Score(rows, q, dist);
    var hits := Store.Retrieve(db, q, EvidenceCount, dist).value;
    assert hits == Ranking.TopK(scored, EvidenceCount);
    var k :| 0 <= k < |rows| && rows[k] == hits[0].item;
    forall j | 0 <= j < |rows|
      ensures Ranking.KeyLe(Store.KeyOf(rows[k], q, dist), Store.KeyOf(rows[j], q, dist))
    {
      Ranking.TopKFirstIsLeast(scored, EvidenceCount, j);
    }
    var links := GetAnswer(db, query, imageText, encode, dist, chat).value.links;
    assert links[0] == Link(Store.EntryOf(rows[k]).title, Store.EntryOf(rows[k]).url);
  }
}

=== FILE: Ranking.dfy ===
/** The ordering of the similarity query: rows are compared by the
    lexicographic key (distance, source priority) and the first `n` taken. */
module Ranking {

  /** The sort key of one candidate row. */
  datatype Key = Key(distance: int, priority: nat)

  /** Lexicographic order on keys: distance first, then source priority. */
  predicate KeyLe(a: Key, b: Key) {
    a.distance < b.distance || (a.distance == b.distance && a.priority <= b.priority)
  }

  /** The tie-break rank of a source tag: course text, then forum, then anything else. */
  function SourcePriority(source: string): (p: nat)
    ensures p <= 2
    ensures p == 0 <==> source == "tds"
    ensures p == 1 <==> source == "discourse"
  {
    if source == "tds" then 0 else if source == "discourse" then 1 else 2
  }

  /** A candidate paired with its key. */
  datatype Scored<T> = Scored(item: T, key: Key)

  /** Keys are non-decreasing along `s`. */
  predicate Sorted<T>(s: seq<Scored<T>>) {
    forall i, j :: 0 <= i < j < |s| ==> KeyLe(s[i].key, s[j].key)
  }

  /** Inserts `x` into a sorted sequence, before every element whose key is
      not smaller (so earlier candidates stay ahead of equal later ones). */
  function Insert<T>(x: Scored<T>, s: seq<Scored<T>>): (r: seq<Scored<T>>)
    requires Sorted(s)
    ensures |r| == |s| + 1
    ensures Sorted(r)
    ensures multiset(r) == multiset(s) + multiset{x}
    ensures forall i :: 0 <= i < |r| ==> r[i] == x || r[i] in s
    decreases |s|
  {
    if |s| == 0 then [x]
    else if KeyLe(x.key, s[0].key) then [x] + s
    else
      var rest := Insert(x, s[1..]);
      assert forall i :: 0 <= i < |rest| ==> KeyLe(s[0].key, rest[i].key) by {
        forall i | 0 <= i < |rest| ensures KeyLe(s[0].key, rest[i].key) {
          if rest[i] != x {
            var j :| 0 <= j < |s[1..]| && s[1..][j] == rest[i];
            assert s[j + 1] == rest[i];
          }
        }
      }
      assert s == [s[0]] + s[1..];
      [s[0]] + rest
  }

  /** Insertion sort by key. */
  function SortByKey<T>(xs: seq<Scored<T>>): (r: seq<Scored<T>>)
    ensures |r| == |xs|
    ensures Sorted(r)
    ensures multiset(r) == multiset(xs)
    decreases |xs|
  {
    if |xs| == 0 then []
    else
      assert xs == [xs[0]] + xs[1..];
      Insert(xs[0], SortByKey(xs[1..]))
  }

  function Min(a: int, b: int): int {
    if a < b then a else b
  }

  /** SQL's `ORDER BY key LIMIT n`: the `n` smallest candidates in key
      order; every candidate left out is no smaller than any returned. */
  function TopK<T>(xs: seq<Scored<T>>, n: nat): (r: seq<Scored<T>>)
    ensures |r| == Min(n, |xs|)
    ensures Sorted(r)
    ensures multiset(r) <= multiset(xs)
    ensures forall i, y :: 0 <= i < |r| && y in multiset(xs) - multiset(r) ==> KeyLe(r[i].key, y.key)
  {
    var s := SortByKey(xs);
    var m := Min(n, |s|);
    TakeSplit(xs, s, m);
    PrefixBelowSuffix(s, m);
    s[..m]
  }

  /** Cutting a permutation of `xs` at `m`: the prefix is part of `xs` and
      what it leaves of `xs` is the suffix. */
  lemma TakeSplit<T>(xs: seq<Scored<T>>, s: seq<Scored<T>>, m: nat)
    requires multiset(s) == multiset(xs) && m <= |s|
    ensures multiset(s[..m]) <= multiset(xs)
    ensures multiset(xs) - multiset(s[..m]) == multiset(s[m..])
  {
    assert s == s[..m] + s[m..];
    assert multiset(s) == multiset(s[..m]) + multiset(s[m..]);
  }

  /** In a sorted sequence every element of a prefix is no larger than
      every element left in the suffix. */
  lemma PrefixBelowSuffix<T>(s: seq<Scored<T>>, m: nat)
    requires Sorted(s) && m <= |s|
    ensures forall i, y :: 0 <= i < m && y in multiset(s[m..]) ==> KeyLe(s[i].key, y.key)
  {
    forall i, y | 0 <= i < m && y in multiset(s[m..])
      ensures KeyLe(s[i].key, y.key)
    {
      var j :| 0 <= j < |s[m..]| && s[m..][j] == y;
      assert s[m + j] == y;
    }
  }

  /** On equal distance a course row is never ranked behind a forum row. */
  lemma CourseBeforeForumOnTie<T>(s: seq<Scored<T>>, i: int, j: int)
    requires Sorted(s)
    requires 0 <= i < |s| && 0 <= j < |s|
    requires s[i].key.distance == s[j].key.distance
    requires s[i].key.priority == SourcePriority("tds")
    requires s[j].key.priority == SourcePriority("discourse")
    ensures i < j
  {
  }

  /** The first candidate of a non-empty top-k has the least key of all. */
  lemma TopKFirstIsLeast<T>(xs: seq<Scored<T>>, n: nat, k: int)
    requires n >= 1 && 0 <= k < |xs|
    ensures |TopK(xs, n)| > 0
    ensures KeyLe(TopK(xs, n)[0].key, xs[k].key)
  {
    var r := TopK(xs, n);
    var y := xs[k];
    if y in multiset(r) {
      var j :| 0 <= j < |r| && r[j] == y;
      if j > 0 { assert KeyLe(r[0].key, r[j].key); }
    } else {
      assert y in multiset(xs) - multiset(r);
    }
  }

  /** Two candidates out of key order come back swapped. */
  lemma TopKSwapsTwo<T>(a: Scored<T>, b: Scored<T>)
    requires !KeyLe(a.key, b.key)
    ensures TopK([a, b], 2) == [b, a]
  {
    assert [a, b][1..] == [b];
    assert SortByKey([b]) == [b];
    assert SortByKey([a, b]) == [b, a];
  }
}

=== FILE: Seqs.dfy ===
/** Flattening a sequence of sequences, the shape of "for each item, append
    all of its results" loops. */
module Seqs {

  /** The concatenation of all `parts`, in order. */
  function Flatten<T>(parts: seq<seq<T>>): seq<T>
    decreases |parts|
  {
    if |parts| == 0 then [] else parts[0] + Flatten(parts[1..])
  }

  /** The total number of elements of all `parts` (reference count). */
  function TotalLength<T>(parts: seq<seq<T>>): nat
    decreases |parts|
  {
    if |parts| == 0 then 0 else |parts[0]| + TotalLength(parts[1..])
  }

  /** Flattening keeps every element: the length is the sum of the lengths. */
  lemma {:induction false} FlattenLength<T>(parts: seq<seq<T>>)
    ensures |Flatten(parts)| == TotalLength(parts)
    decreases |parts|
  {
    if |parts| > 0 {
      FlattenLength(parts[1..]);
    }
  }

  /** Flattening distributes over concatenation of the parts. */
  lemma {:induction false} FlattenAppend<T>(a: seq<seq<T>>, b: seq<seq<T>>)
    ensures Flatten(a + b) == Flatten(a) + Flatten(b)
    decreases |a|
  {
    if |a| == 0 {
      assert a + b == b;
    } else {
      var ab := a + b;
      assert ab[0] == a[0] && ab[1..] == a[1..] + b;
      calc {
        Flatten(ab);
        a[0] + Flatten(a[1..] + b);
        { FlattenAppend(a[1..], b); }
        a[0] + (Flatten(a[1..]) + Flatten(b));
        (a[0] + Flatten(a[1..])) + Flatten(b);
      }
    }
  }

  /** The part that the `k`-th element of the flattening comes from. */
  function PartOf<T>(parts: seq<seq<T>>, k: nat): (j: nat)
    requires k < |Flatten(parts)|
    ensures j < |parts| && Flatten(parts)[k] in parts[j]
    decreases |parts|
  {
    if k < |parts[0]| then
      assert Flatten(parts)[k] == parts[0][k];
      0
    else
      var j := PartOf(parts[1..], k - |parts[0]|);
      assert Flatten(parts)[k] == Flatten(parts[1..])[k - |parts[0]|];
      j + 1
  }

  /** `f` applied to every element of `xs`, in order. */
  function Map<A, B>(f: A -> B, xs: seq<A>): (r: seq<B>)
    ensures |r| == |xs|
    ensures forall i :: 0 <= i < |xs| ==> r[i] == f(xs[i])
  {
    seq(|xs|, i requires 0 <= i < |xs| => f(xs[i]))
  }

  /** Mapping distributes over concatenation. */
  lemma MapAppend<A, B>(f: A -> B, a: seq<A>, b: seq<A>)
    ensures Map(f, a + b) == Map(f, a) + Map(f, b)
  {
    forall i | 0 <= i < |a + b| ensures Map(f, a + b)[i] == (Map(f, a) + Map(f, b))[i] {
      if i < |a| { assert (a + b)[i] == a[i]; } else { assert (a + b)[i] == b[i - |a|]; }
    }
  }
}

=== FILE: Store.dfy ===
/** The knowledge store (db.py): one table of rows `(source, text, metadata,
    embedding)`, its destructive rebuild, the emptiness probe, row insertion
    and the ranked similarity query. */
module Store {
  import opened Wrappers
  import opened Ranking
  import Corpus

  /** An embedding vector; its components are never inspected. */
  type Vector = seq<real>

  /** The metadata bag of a stored row, one shape per adapter. A `url`
      of None is a JSON null. */
  datatype Metadata =
    | TdsMeta(courseTitle: string, heading: string, links: seq<Corpus.TdsLink>)
    | DiscourseMeta(
        topicId: int,
        postId: int,
        topicTitle: string,
        author: string,
        likeCount: int,
        isAcceptedAnswer: bool,
        url: Option<string>)

  datatype Row = Row(source: string, text: string, metadata: Metadata, embedding: Vector)

  /** The `data` table: its declared vector width `FLOAT[dim]` and its rows in insertion order. */
  datatype Table = Table(dim: nat, rows: seq<Row>)

  /** The database file; `data` is None while the table does not exist. */
  datatype Db = Db(data: Option<Table>)

  datatype StoreError =
    | MissingTable       // the `data` table does not exist
    | DimensionMismatch  // a vector does not fit the `FLOAT[dim]` column

  /** What a query returns per row (db.py's `DataEntry`). */
  datatype DataEntry = DataEntry(text: string, title: string, url: Option<string>)

  /** Every stored embedding has exactly the declared number of components. */
  predicate WellFormed(db: Db) {
    db.data.Some? ==>
      forall i :: 0 <= i < |db.data.value.rows| ==> |db.data.value.rows[i].embedding| == db.data.value.dim
  }

  /** `has_data`: the table exists and holds at least one row; a missing
      table reads as no data rather than an error. */
  predicate HasData(db: Db) {
    db.data.Some? && |db.data.value.rows| > 0
  }

  /** `prepare_db`: drop the table if present and recreate it empty with
      vector width `dim`. Whatever the store held before is discarded. */
  function PrepareDb(db: Db, dim: nat): (r: Db)
    ensures r.data.Some? && r.data.value.dim == dim
    ensures !HasData(r) && WellFormed(r)
  {
    Db(Some(Table(dim, [])))
  }

  /** One `INSERT INTO data`: fails when the table is missing or the vector
      does not have the column's width; otherwise appends the row. */
  function InsertRow(db: Db, row: Row): (r: Result<Db, StoreError>)
    ensures r.Ok? <==> db.data.Some? && |row.embedding| == db.data.value.dim
    ensures r.Ok? ==> r.value.data == Some(Table(db.data.value.dim, db.data.value.rows + [row]))
    ensures r.Err? && db.data.None? ==> r.error == MissingTable
  {
    match db.data
    case None => Err(MissingTable)
    case Some(t) =>
      if |row.embedding| != t.dim then Err(DimensionMismatch)
      else Ok(Db(Some(Table(t.dim, t.rows + [row]))))
  }

  /** Insert the rows one after another, stopping at the first failure.
      An empty batch runs no `INSERT`, so it succeeds even when the table is
      missing. */
  function InsertAll(db: Db, rows: seq<Row>): (r: Result<Db, StoreError>)
    ensures r.Ok? <==>
      |rows| == 0 || (db.data.Some? && forall i :: 0 <= i < |rows| ==> |rows[i].embedding| == db.data.value.dim)
    ensures |rows| == 0 ==> r == Ok(db)
    ensures r.Ok? && db.data.Some? ==> r.value.data == Some(Table(db.data.value.dim, db.data.value.rows + rows))
    ensures r.Err? && db.data.None? ==> r.error == MissingTable
    decreases |rows|
  {
    if |rows| == 0 then
      assert db.data.Some? ==> db.data.value.rows + rows == db.data.value.rows;
      Ok(db)
    else
      match InsertRow(db, rows[0])
      case Err(e) => Err(e)
      case Ok(db') =>
        var r := InsertAll(db', rows[1..]);
        assert db.data.value.rows + [rows[0]] + rows[1..] == db.data.value.rows + rows;
        assert forall i :: 1 <= i < |rows| ==> rows[i] == rows[1..][i - 1];
        r
  }

  /** Insertion keeps every stored vector at the declared width. */
  lemma InsertAllWellFormed(db: Db, rows: seq<Row>)
    requires WellFormed(db)
    requires InsertAll(db, rows).Ok?
    ensures WellFormed(InsertAll(db, rows).value)
  {
    if db.data.Some? {
      var t := InsertAll(db, rows).value.data.value;
      var old_ := db.data.value.rows;
      forall i | 0 <= i < |t.rows| ensures |t.rows[i].embedding| == t.dim {
        if i < |old_| { assert t.rows[i] == old_[i]; }
        else { assert t.rows[i] == rows[i - |old_|]; }
      }
    }
  }

  /** A rebuild followed by inserting rows of the right width holds exactly those rows. */
  lemma RebuildThenInsert(db: Db, dim: nat, rows: seq<Row>)
    requires forall i :: 0 <= i < |rows| ==> |rows[i].embedding| == dim
    ensures InsertAll(PrepareDb(db, dim), rows) == Ok(Db(Some(Table(dim, rows))))
    ensures HasData(InsertAll(PrepareDb(db, dim), rows).value) <==> |rows| > 0
  {
    assert [] + rows == rows;
  }

  /** The sort key of a row against query vector `q`: `array_distance`
      first, then the source priority of the `CASE` expression. */
  function KeyOf(row: Row, q: Vector, dist: (Vector, Vector) -> int): Key {
    Key(dist(row.embedding, q), SourcePriority(row.source))
  }

  /** Every row paired with its key, in table order. */
  function Score(rows: seq<Row>, q: Vector, dist: (Vector, Vector) -> int): (r: seq<Scored<Row>>)
    ensures |r| == |rows|
    ensures forall i :: 0 <= i < |r| ==> r[i] == Scored(rows[i], KeyOf(rows[i], q, dist))
  {
    seq(|rows|, i requires 0 <= i < |rows| => Scored(rows[i], KeyOf(rows[i], q, dist)))
  }

  /** The `SELECT … ORDER BY distance, priority LIMIT n` of
      `search_similar`: fails when the table is missing or the query vector
      does not cast to `FLOAT[dim]`; otherwise the `n` rows of least key, in
      key order, none left out that ranks strictly before one returned. */
  function Retrieve(db: Db, q: Vector, n: nat, dist: (Vector, Vector) -> int)
    : (r: Result<seq<Scored<Row>>, StoreError>)
    ensures r.Ok? <==> db.data.Some? && |q| == db.data.value.dim
    ensures r.Ok? ==> |r.value| == Min(n, |db.data.value.rows|)
    ensures r.Ok? ==> Sorted(r.value)
    ensures r.Ok? ==>
      forall i :: 0 <= i < |r.value| ==>
        r.value[i].item in db.data.value.rows && r.value[i].key == KeyOf(r.value[i].item, q, dist)
    ensures r.Ok? ==> multiset(r.value) <= multiset(Score(db.data.value.rows, q, dist))
    ensures r.Ok? ==>
      forall i, y :: 0 <= i < |r.value| && y in multiset(Score(db.data.value.rows, q, dist)) - multiset(r.value)
        ==> KeyLe(r.value[i].key, y.key)
  {
    match db.data
    case None => Err(MissingTable)
    case Some(t) =>
      if |q| != t.dim then Err(DimensionMismatch)
      else
        var scored := Score(t.rows, q, dist);
        var r := TopK(scored, n);
        assert forall i :: 0 <= i < |r| ==> r[i].item in t.rows && r[i].key == KeyOf(r[i].item, q, dist) by {
          forall i | 0 <= i < |r| ensures r[i].item in t.rows && r[i].key == KeyOf(r[i].item, q, dist) {
            assert r[i] in multiset(scored);
            var j :| 0 <= j < |scored| && scored[j] == r[i];
          }
        }
        Ok(r)
  }

  /** Title and url of a row as `search_similar` reads them from the
      metadata: the title is `course_title` for source "tds" and
      `topic_title` otherwise, the url is `url`; a key the metadata does not
      have reads as "". */
  function EntryOf(row: Row): (e: DataEntry)
    ensures e.text == row.text
    ensures row.source == "tds" && row.metadata.TdsMeta? ==> e.title == row.metadata.courseTitle
    ensures row.source != "tds" && row.metadata.DiscourseMeta? ==> e.title == row.metadata.topicTitle
    ensures (row.source == "tds") != row.metadata.TdsMeta? ==> e.title == ""
    ensures row.metadata.TdsMeta? ==> e.url == Some("")
    ensures row.metadata.DiscourseMeta? ==> e.url == row.metadata.url
  {
    var title :=
      if row.source == "tds" then
        (match row.metadata case TdsMeta(t, _, _) => t case DiscourseMeta(_, _, _, _, _, _, _) => "")
      else
        (match row.metadata case DiscourseMeta(_, _, t, _, _, _, _) => t case TdsMeta(_, _, _) => "");
    var url :=
      match row.metadata
      case TdsMeta(_, _, _) => Some("")
      case DiscourseMeta(_, _, _, _, _, _, u) => u;
    DataEntry(row.text, title, url)
  }

  /** `search_similar`: one entry per retrieved row, in retrieval order. */
  function SearchSimilar(db: Db, q: Vector, n: nat, dist: (Vector, Vector) -> int)
    : (r: Result<seq<DataEntry>, StoreError>)
    ensures r.Ok? <==> Retrieve(db, q, n, dist).Ok?
    ensures r.Err? ==> r.error == Retrieve(db, q, n, dist).error
    ensures r.Ok? ==> |r.value| == Min(n, |db.data.value.rows|)
    ensures r.Ok? ==>
      forall i :: 0 <= i < |r.value| ==> r.value[i] == EntryOf(Retrieve(db, q, n, dist).value[i].item)
  {
    match Retrieve(db, q, n, dist)
    case Err(e) => Err(e)
    case Ok(hits) => Ok(seq(|hits|, i requires 0 <= i < |hits| => EntryOf(hits[i].item)))
  }

  /** Rebuilding twice leaves the same empty, queryable store as rebuilding once. */
  lemma PrepareIdempotent(db: Db, dim: nat, q: Vector, n: nat, dist: (Vector, Vector) -> int)
    requires |q| == dim
    ensures PrepareDb(PrepareDb(db, dim), dim) == PrepareDb(db, dim)
    ensures !HasData(PrepareDb(PrepareDb(db, dim), dim))
    ensures SearchSimilar(PrepareDb(db, dim), q, n, dist) == Ok([])
  {
  }

  /** `has_data` holds exactly when a one-row query on a usable store returns a row. */
  lemma HasDataIffQueryHit(db: Db, q: Vector, dist: (Vector, Vector) -> int)
    requires db.data.Some? ==> |q| == db.data.value.dim
    ensures HasData(db) <==> SearchSimilar(db, q, 1, dist).Ok? && |SearchSimilar(db, q, 1, dist).value| == 1
  {
  }

  /** Among rows at equal distance, a course row is returned before a forum row. */
  lemma CourseRowsFirstOnTie(db: Db, q: Vector, n: nat, dist: (Vector, Vector) -> int,
                             hits: seq<Scored<Row>>, i: int, j: int)
    requires Retrieve(db, q, n, dist) == Ok(hits)
    requires 0 <= i < |hits| && 0 <= j < |hits|
    requires hits[i].item.source == "tds" && hits[j].item.source == "discourse"
    requires hits[i].key.distance == hits[j].key.distance
    ensures i < j
  {
    CourseBeforeForumOnTie(hits, i, j);
  }

  /** Querying with a stored row's own vector ranks first a row at distance
      0 whose source priority is no worse, when the distance is zero on
      equal vectors and never negative. */
  lemma ExactMatchRanksFirst(db: Db, q: Vector, n: nat, dist: (Vector, Vector) -> int, k: int)
    requires db.data.Some? && |q| == db.data.value.dim && n >= 1
    requires 0 <= k < |db.data.value.rows| && db.data.value.rows[k].embedding == q
    requires dist(q, q) == 0
    requires forall a, b :: dist(a, b) >= 0
    ensures |Retrieve(db, q, n, dist).value| > 0
    ensures Retrieve(db, q, n, dist).value[0].key.distance == 0
    ensures Retrieve(db, q, n, dist).value[0].key.priority <= SourcePriority(db.data.value.rows[k].source)
  {
    var scored := Score(db.data.value.rows, q, dist);
    TopKFirstIsLeast(scored, n, k);
    var first := Retrieve(db, q, n, dist).value[0];
    assert dist(first.item.embedding, q) >= 0;
  }

  /** A course row and a forum row equally close to the query come back
      course first, whatever order they were inserted in. */
  lemma EqualDistanceCourseFirst(dim: nat, t: Row, d: Row, q: Vector, dist: (Vector, Vector) -> int)
    requires t.source == "tds" && d.source == "discourse"
    requires |q| == dim
    requires dist(t.embedding, q) == dist(d.embedding, q)
    ensures SearchSimilar(Db(Some(Table(dim, [d, t]))), q, 2, dist) == Ok([EntryOf(t), EntryOf(d)])
  {
    var db := Db(Some(Table(dim, [d, t])));
    RetrieveEqualDistance(dim, t, d, q, dist);
    var es := SearchSimilar(db, q, 2, dist).value;
    assert |es| == 2 && es[0] == EntryOf(t) && es[1] == EntryOf(d);
    assert es == [EntryOf(t), EntryOf(d)];
  }

  lemma RetrieveEqualDistance(dim: nat, t: Row, d: Row, q: Vector, dist: (Vector, Vector) -> int)
    requires t.source == "tds" && d.source == "discourse"
    requires |q| == dim
    requires dist(t.embedding, q) == dist(d.embedding, q)
    ensures Retrieve(Db(Some(Table(dim, [d, t]))), q, 2, dist)
         == Ok([Scored(t, KeyOf(t, q, dist)), Scored(d, KeyOf(d, q, dist))])
  {
    var sd, st := Scored(d, KeyOf(d, q, dist)), Scored(t, KeyOf(t, q, dist));
    var scored := Score([d, t], q, dist);
    assert |scored| == 2 && scored[0] == sd && scored[1] == st;
    assert scored == [sd, st];
    TopKSwapsTwo(sd, st);
    assert Retrieve(Db(Some(Table(dim, [d, t]))), q, 2, dist) == Ok(TopK(scored, 2));
  }
}

=== FILE: TdsEmbedding.dfy ===
/** The course-text adapter (`embed_tds`): one store row per non-blank
    section of every course row, in course order then section order. */
module TdsEmbedding {
  import opened Wrappers
  import opened Text
  import opened Corpus
  import Store

  /** The embedded text of a section: the heading, a newline, then the
      content items joined by newlines. */
  function SectionText(s: TdsSection): string {
    s.heading + "\n" + Join("\n", s.content)
  }

  /** A section is skipped when its text is empty after `strip()`, that is,
      when the text is whitespace only (`Text.Strip` states the equivalence). */
  predicate Blank(s: TdsSection) {
    AllSpace(SectionText(s))
  }

  /** The store row for one section of course row `c`. */
  function SectionRow(c: CourseRow, s: TdsSection, embed: string -> Store.Vector): Store.Row {
    var text := SectionText(s);
    Store.Row("tds", text, Store.TdsMeta(c.courseTitle, s.heading, c.links.GetOr([])), embed(text))
  }

  /** The sections of a course row; a missing column reads as none. */
  function SectionsOf(c: CourseRow): seq<TdsSection> {
    c.sections.GetOr([])
  }

  /** Rows for the sections `ss` of course row `c`, blank ones skipped. */
  function SectionRows(c: CourseRow, ss: seq<TdsSection>, embed: string -> Store.Vector): (r: seq<Store.Row>)
    ensures |r| <= |ss|
    ensures forall k :: 0 <= k < |r| ==> r[k].source == "tds" && !AllSpace(r[k].text) && r[k].embedding == embed(r[k].text)
    decreases |ss|
  {
    if |ss| == 0 then []
    else (if Blank(ss[0]) then [] else [SectionRow(c, ss[0], embed)]) + SectionRows(c, ss[1..], embed)
  }

  /** All rows `embed_tds` inserts for the course rows `cs`. */
  function TdsRows(cs: seq<CourseRow>, embed: string -> Store.Vector): (r: seq<Store.Row>)
    ensures forall k :: 0 <= k < |r| ==> r[k].source == "tds" && !AllSpace(r[k].text) && r[k].embedding == embed(r[k].text)
    decreases |cs|
  {
    if |cs| == 0 then [] else SectionRows(cs[0], SectionsOf(cs[0]), embed) + TdsRows(cs[1..], embed)
  }

  /** Every section of every course row is blank, so nothing is inserted. */
  predicate AllBlank(cs: seq<CourseRow>) {
    forall j, k :: 0 <= j < |cs| && 0 <= k < |SectionsOf(cs[j])| ==> Blank(SectionsOf(cs[j])[k])
  }

  /** `embed_tds`: insert every row of `TdsRows` into the store. With no
      non-blank section no `INSERT` runs, so it succeeds even without a
      table; otherwise it needs the table and every embedding at its width. */
  function EmbedTds(db: Store.Db, cs: seq<CourseRow>, embed: string -> Store.Vector)
    : (r: Result<Store.Db, Store.StoreError>)
    ensures r.Ok? <==>
      AllBlank(cs) ||
      (db.data.Some? && forall k :: 0 <= k < |TdsRows(cs, embed)| ==> |embed(TdsRows(cs, embed)[k].text)| == db.data.value.dim)
    ensures AllBlank(cs) ==> r == Ok(db)
    ensures r.Ok? && db.data.Some? ==>
      r.value.data == Some(Store.Table(db.data.value.dim, db.data.value.rows + TdsRows(cs, embed)))
    ensures r.Err? && db.data.None? ==> r.error == Store.MissingTable
  {
    TdsRowsEmpty(cs, embed);
    Store.InsertAll(db, TdsRows(cs, embed))
  }

  /** A course row yields no rows exactly when all its sections are blank. */
  lemma {:induction false} SectionRowsEmpty(c: CourseRow, ss: seq<TdsSection>, embed: string -> Store.Vector)
    ensures |SectionRows(c, ss, embed)| == 0 <==> forall k :: 0 <= k < |ss| ==> Blank(ss[k])
    decreases |ss|
  {
    if |ss| > 0 {
      SectionRowsEmpty(c, ss[1..], embed);
      assert forall k :: 1 <= k < |ss| ==> ss[k] == ss[1..][k - 1];
    }
  }

  /** `embed_tds` inserts nothing exactly when every section is blank. */
  lemma {:induction false} TdsRowsEmpty(cs: seq<CourseRow>, embed: string -> Store.Vector)
    ensures |TdsRows(cs, embed)| == 0 <==> AllBlank(cs)
    decreases |cs|
  {
    if |cs| > 0 {
      SectionRowsEmpty(cs[0], SectionsOf(cs[0]), embed);
      TdsRowsEmpty(cs[1..], embed);
      assert forall j :: 1 <= j < |cs| ==> cs[j] == cs[1..][j - 1];
    }
  }

  /** Number of non-blank sections over all course rows. */
  function NonBlankAll(cs: seq<CourseRow>): nat
    decreases |cs|
  {
    if |cs| == 0 then 0 else |KeptSections(SectionsOf(cs[0]))| + NonBlankAll(cs[1..])
  }

  /** A section is blank, i.e. its stripped text is empty, exactly when its
      heading and every content item are whitespace only. */
  lemma BlankIff(s: TdsSection)
    ensures Blank(s) <==> |Strip(SectionText(s))| == 0
    ensures Blank(s) <==> AllSpace(s.heading) && forall k :: 0 <= k < |s.content| ==> AllSpace(s.content[k])
  {
    JoinAllSpace("\n", s.content);
    AppendAllSpace(s.heading, "\n");
    AppendAllSpace(s.heading + "\n", Join("\n", s.content));
  }

  /** Splitting a section's text on newlines gives back the heading and the
      content items (one empty item when there is no content), provided none
      of them contains a newline. */
  lemma SectionTextSplits(s: TdsSection)
    requires '\n' !in s.heading
    requires forall k :: 0 <= k < |s.content| ==> '\n' !in s.content[k]
    ensures Split(SectionText(s), '\n') == [s.heading] + (if |s.content| == 0 then [""] else s.content)
  {
    var items := [s.heading] + (if |s.content| == 0 then [""] else s.content);
    assert Join("\n", items) == SectionText(s) by {
      if |s.content| == 0 {
        assert Join("\n", [""]) == "";
      } else {
        assert items[1..] == s.content;
      }
    }
    SplitJoin(items, '\n');
  }

  /** One row per non-blank section, no more and no fewer. */
  lemma {:induction false} TdsRowsCount(cs: seq<CourseRow>, embed: string -> Store.Vector)
    ensures |TdsRows(cs, embed)| == NonBlankAll(cs)
    decreases |cs|
  {
    if |cs| > 0 {
      RowsAreKeptSections(cs[0], SectionsOf(cs[0]), embed);
      TdsRowsCount(cs[1..], embed);
    }
  }

  /** Rows come out in course-row order: the rows of a concatenation are the
      concatenation of the rows. */
  lemma {:induction false} TdsRowsAppend(a: seq<CourseRow>, b: seq<CourseRow>, embed: string -> Store.Vector)
    ensures TdsRows(a + b, embed) == TdsRows(a, embed) + TdsRows(b, embed)
    decreases |a|
  {
    if |a| == 0 {
      assert a + b == b;
    } else {
      var head := SectionRows(a[0], SectionsOf(a[0]), embed);
      var ab := a + b;
      assert ab[0] == a[0] && ab[1..] == a[1..] + b;
      calc {
        TdsRows(ab, embed);
        head + TdsRows(a[1..] + b, embed);
        { TdsRowsAppend(a[1..], b, embed); }
        head + (TdsRows(a[1..], embed) + TdsRows(b, embed));
        (head + TdsRows(a[1..], embed)) + TdsRows(b, embed);
        TdsRows(a, embed) + TdsRows(b, embed);
      }
    }
  }

  /** A course row whose sections are missing or empty contributes nothing. */
  lemma NoSectionsNoRows(c: CourseRow, embed: string -> Store.Vector)
    requires c.sections.None? || c.sections == Some([])
    ensures TdsRows([c], embed) == []
  {
  }

  /** The sections that are kept, in order (reference definition). */
  function KeptSections(ss: seq<TdsSection>): seq<TdsSection>
    decreases |ss|
  {
    if |ss| == 0 then [] else (if Blank(ss[0]) then [] else [ss[0]]) + KeptSections(ss[1..])
  }

  /** The rows of a course row are exactly its kept sections, each mapped
      to its row, in section order. */
  lemma {:induction false} RowsAreKeptSections(c: CourseRow, ss: seq<TdsSection>, embed: string -> Store.Vector)
    ensures |SectionRows(c, ss, embed)| == |KeptSections(ss)|
    ensures forall k :: 0 <= k < |KeptSections(ss)| ==>
      SectionRows(c, ss, embed)[k] == SectionRow(c, KeptSections(ss)[k], embed)
    decreases |ss|
  {
    if |ss| > 0 {
      RowsAreKeptSections(c, ss[1..], embed);
      var rest, kept := SectionRows(c, ss[1..], embed), KeptSections(ss[1..]);
      if Blank(ss[0]) {
        assert SectionRows(c, ss, embed) == rest && KeptSections(ss) == kept;
      } else {
        assert SectionRows(c, ss, embed) == [SectionRow(c, ss[0], embed)] + rest;
        assert KeptSections(ss) == [ss[0]] + kept;
      }
    }
  }

  /** A section is kept exactly when it is not blank. */
  lemma {:induction false} KeptSectionsMembers(ss: seq<TdsSection>, s: TdsSection)
    ensures s in KeptSections(ss) <==> s in ss && !Blank(s)
    decreases |ss|
  {
    if |ss| > 0 {
      KeptSectionsMembers(ss[1..], s);
      assert s in ss <==> s == ss[0] || s in ss[1..];
    }
  }

  /** The row of a section carries source "tds", the section text, the
      course title, heading and links; it has no url, so a query shows it
      with url "" and the course title as its title. */
  lemma SectionRowShape(c: CourseRow, s: TdsSection, embed: string -> Store.Vector)
    ensures var row := SectionRow(c, s, embed);
      && row.source == "tds"
      && row.text == s.heading + "\n" + Join("\n", s.content)
      && row.metadata == Store.TdsMeta(c.courseTitle, s.heading, c.links.GetOr([]))
      && Store.EntryOf(row) == Store.DataEntry(row.text, c.courseTitle, Some(""))
  {
  }
}

=== FILE: TdsScraper.dfy ===
/** The record derivation of the course-site scraper: splitting a page into
    heading sections, the page-link filter, the crawl-link filter with its
    normalisation and de-duplication, and the visited-set rule of the crawl.
    The browser and the HTML parser are parameters: a page is given as its
    main content's flat list of sibling nodes plus its anchors. */
module TdsScraper {
  import opened Wrappers
  import opened Text
  import opened Corpus

  /** A sibling node: an element with its tag name and `get_text()`, or a
      bare string (whose tag name is None). */
  datatype Node = Element(name: string, text: string) | Str(text: string)

  /** An `<a>` element: its `href` attribute, if any, and its text. */
  datatype Anchor = Anchor(href: Option<string>, text: string)

  /** The main content area: its top-level nodes in document order and the
      anchors inside it. */
  datatype MainContent = MainContent(nodes: seq<Node>, anchors: seq<Anchor>)

  /** A loaded page: its main content area (None when the page has no
      `main`, `div.content` or `body`) and every anchor on the page. */
  datatype Page = Page(main: Option<MainContent>, anchors: seq<Anchor>)

  /** What `scrape_course_content` returns for one page. */
  datatype TdsData = TdsData(courseTitle: string, sections: seq<TdsSection>, links: seq<TdsLink>)

  /** A crawled page: its content, its URL, and the link text it was reached by
      (None for the main page). */
  datatype PageRecord = PageRecord(data: TdsData, url: string, linkText: Option<string>)

  const SiteHost := "tds.s-anand.net"
  const SiteRoot := "https://tds.s-anand.net"
  const BaseUrl := "https://tds.s-anand.net/#/2025-01/"

  /** An `h1`–`h4` element: the tags that open a section. */
  predicate IsSectionHeading(n: Node) {
    n.Element? && (n.name == "h1" || n.name == "h2" || n.name == "h3" || n.name == "h4")
  }

  /** An empty bare string, which Python treats as false and so ends a sibling walk. */
  predicate IsFalsy(n: Node) {
    n.Str? && n.text == ""
  }

  /** The content of a section: the stripped, non-empty texts of the siblings
      that follow its heading, up to the next section heading. */
  function Gather(s: seq<Node>): (r: seq<string>)
    ensures |r| <= |s|
    ensures forall k :: 0 <= k < |r| ==> r[k] != "" && IsStripped(r[k])
    decreases |s|
  {
    if |s| == 0 || IsFalsy(s[0]) || IsSectionHeading(s[0]) then []
    else
      var t := Strip(s[0].text);
      (if t != "" then [t] else []) + Gather(s[1..])
  }

  /** The section opened by the heading at index `i`. */
  function SectionFor(nodes: seq<Node>, i: nat): TdsSection
    requires i < |nodes| && IsSectionHeading(nodes[i])
  {
    TdsSection(Strip(nodes[i].text), nodes[i].name, Gather(nodes[i + 1..]))
  }

  /** The indices of the section headings, in document order (the
      `find_all` of h1–h4 over the main content). */
  function HeadingIndices(nodes: seq<Node>): (r: seq<nat>)
    ensures forall k :: 0 <= k < |r| ==> r[k] < |nodes| && IsSectionHeading(nodes[r[k]])
    ensures forall k, l :: 0 <= k < l < |r| ==> r[k] < r[l]
    ensures forall i :: 0 <= i < |nodes| && IsSectionHeading(nodes[i]) ==> i in r
  {
    HeadingsFrom(nodes, 0)
  }

  /** The indices of the section headings at or after index `i`. */
  function HeadingsFrom(nodes: seq<Node>, i: nat): (r: seq<nat>)
    requires i <= |nodes|
    ensures forall k :: 0 <= k < |r| ==> i <= r[k] < |nodes| && IsSectionHeading(nodes[r[k]])
    ensures forall k, l :: 0 <= k < l < |r| ==> r[k] < r[l]
    ensures forall j :: i <= j < |nodes| && IsSectionHeading(nodes[j]) ==> j in r
    decreases |nodes| - i
  {
    if i == |nodes| then []
    else (if IsSectionHeading(nodes[i]) then [i] else []) + HeadingsFrom(nodes, i + 1)
  }

  /** One section per section heading, in document order. */
  function Sections(nodes: seq<Node>): (r: seq<TdsSection>)
    ensures |r| == |HeadingIndices(nodes)|
    ensures forall k :: 0 <= k < |r| ==>
      r[k].heading == Strip(nodes[HeadingIndices(nodes)[k]].text) && r[k].level == nodes[HeadingIndices(nodes)[k]].name
  {
    var hs := HeadingIndices(nodes);
    seq(|hs|, k requires 0 <= k < |hs| => SectionFor(nodes, hs[k]))
  }

  /** Number of section headings among `nodes` (reference count). */
  function HeadingCount(nodes: seq<Node>): nat
    decreases |nodes|
  {
    if |nodes| == 0 then 0 else (if IsSectionHeading(nodes[0]) then 1 else 0) + HeadingCount(nodes[1..])
  }

  /** There are exactly as many sections as section headings; a heading
      whose content is empty still opens a section. */
  lemma SectionsCount(nodes: seq<Node>)
    ensures |Sections(nodes)| == HeadingCount(nodes)
  {
    HeadingsFromCount(nodes, 0);
    assert nodes[0..] == nodes;
  }

  lemma {:induction false} HeadingsFromCount(nodes: seq<Node>, i: nat)
    requires i <= |nodes|
    ensures |HeadingsFrom(nodes, i)| == HeadingCount(nodes[i..])
    decreases |nodes| - i
  {
    if i < |nodes| {
      HeadingsFromCount(nodes, i + 1);
      assert nodes[i..][1..] == nodes[i + 1..];
    }
  }

  /** The stripped, non-empty texts of `s`, in order (reference definition). */
  function NonBlankTexts(s: seq<Node>): seq<string>
    decreases |s|
  {
    if |s| == 0 then []
    else (if Strip(s[0].text) != "" then [Strip(s[0].text)] else []) + NonBlankTexts(s[1..])
  }

  /** The walk stops at the next section heading: nothing at or after it is gathered. */
  lemma {:induction false} GatherStopsAtHeading(a: seq<Node>, h: Node, b: seq<Node>)
    requires IsSectionHeading(h)
    ensures Gather(a + [h] + b) == Gather(a)
    decreases |a|
  {
    if |a| == 0 {
      assert (a + [h] + b)[0] == h;
    } else {
      assert (a + [h] + b)[0] == a[0];
      assert (a + [h] + b)[1..] == a[1..] + [h] + b;
      GatherStopsAtHeading(a[1..], h, b);
    }
  }

  /** Without headings or empty strings in the way, every non-blank text is gathered. */
  lemma {:induction false} GatherAll(s: seq<Node>)
    requires forall k :: 0 <= k < |s| ==> !IsSectionHeading(s[k]) && !IsFalsy(s[k])
    ensures Gather(s) == NonBlankTexts(s)
    decreases |s|
  {
    if |s| > 0 {
      GatherAll(s[1..]);
    }
  }

  /** With no empty strings in the page, a section's content is exactly the
      non-blank texts strictly between its heading and the next heading (or
      the end of the page). */
  lemma SectionContent(nodes: seq<Node>, k: int)
    requires forall i :: 0 <= i < |nodes| ==> !IsFalsy(nodes[i])
    requires 0 <= k < |HeadingIndices(nodes)|
    ensures var hs := HeadingIndices(nodes);
      var next := if k + 1 < |hs| then hs[k + 1] else |nodes|;
      && hs[k] < next
      && Sections(nodes)[k].content == NonBlankTexts(nodes[hs[k] + 1..next])
  {
    var hs := HeadingIndices(nodes);
    var i := hs[k];
    var next := if k + 1 < |hs| then hs[k + 1] else |nodes|;
    var between := nodes[i + 1..next];
    NoHeadingBetween(nodes, k);
    assert forall j :: 0 <= j < |between| ==> between[j] == nodes[i + 1 + j];
    GatherAll(between);
    if next < |nodes| {
      SliceAround(nodes, i + 1, next);
      GatherStopsAtHeading(between, nodes[next], nodes[next + 1..]);
    } else {
      assert nodes[i + 1..] == between;
    }
  }

  lemma SliceAround<T>(s: seq<T>, a: nat, b: nat)
    requires a <= b < |s|
    ensures s[a..] == s[a..b] + [s[b]] + s[b + 1..]
  {
  }

  /** No section heading lies strictly between the k-th heading and the next one. */
  lemma NoHeadingBetween(nodes: seq<Node>, k: int)
    requires 0 <= k < |HeadingIndices(nodes)|
    ensures var hs := HeadingIndices(nodes);
      var next := if k + 1 < |hs| then hs[k + 1] else |nodes|;
      forall j :: hs[k] < j < next ==> !IsSectionHeading(nodes[j])
  {
    var hs := HeadingIndices(nodes);
    var next := if k + 1 < |hs| then hs[k + 1] else |nodes|;
    forall m | 0 <= m < |hs| ensures hs[m] <= hs[k] || hs[m] >= next {
      if m < k { assert hs[m] < hs[k]; }
      else if m > k { assert hs[k + 1] <= hs[m]; }
    }
    forall j | hs[k] < j < next ensures !IsSectionHeading(nodes[j]) {
      assert j !in hs;
    }
  }

  /** The first element with tag `name`, if any. */
  function FindFirst(nodes: seq<Node>, name: string): (r: Option<Node>)
    ensures r.Some? ==> r.value in nodes && r.value.Element? && r.value.name == name
    ensures r.None? ==> forall i :: 0 <= i < |nodes| ==> !(nodes[i].Element? && nodes[i].name == name)
    decreases |nodes|
  {
    if |nodes| == 0 then None
    else if nodes[0].Element? && nodes[0].name == name then Some(nodes[0])
    else FindFirst(nodes[1..], name)
  }

  /** The course title: the stripped text of the first `h1`, else of the
      first `title`, else "". */
  function CourseTitle(nodes: seq<Node>): string {
    match FindFirst(nodes, "h1")
    case Some(h) => Strip(h.text)
    case None =>
      match FindFirst(nodes, "title")
      case Some(t) => Strip(t.text)
      case None => ""
  }

  /** The title is the stripped text of the first `h1` when there is one. */
  lemma {:induction false} CourseTitleFromFirstH1(nodes: seq<Node>, i: int)
    requires 0 <= i < |nodes| && nodes[i].Element? && nodes[i].name == "h1"
    requires forall j :: 0 <= j < i ==> !(nodes[j].Element? && nodes[j].name == "h1")
    ensures CourseTitle(nodes) == Strip(nodes[i].text)
  {
    FirstAt(nodes, "h1", i);
  }

  /** Without an `h1`, the title is the stripped text of the first `title`. */
  lemma {:induction false} CourseTitleFromFirstTitle(nodes: seq<Node>, i: int)
    requires forall j :: 0 <= j < |nodes| ==> !(nodes[j].Element? && nodes[j].name == "h1")
    requires 0 <= i < |nodes| && nodes[i].Element? && nodes[i].name == "title"
    requires forall j :: 0 <= j < i ==> !(nodes[j].Element? && nodes[j].name == "title")
    ensures CourseTitle(nodes) == Strip(nodes[i].text)
  {
    FirstAt(nodes, "title", i);
  }

  /** Without an `h1` or a `title` element, the title stays "". */
  lemma CourseTitleDefault(nodes: seq<Node>)
    requires forall j :: 0 <= j < |nodes| ==> !(nodes[j].Element? && (nodes[j].name == "h1" || nodes[j].name == "title"))
    ensures CourseTitle(nodes) == ""
  {
  }

  /** `FindFirst` finds the element at the first index with that tag. */
  lemma {:induction false} FirstAt(nodes: seq<Node>, name: string, i: int)
    requires 0 <= i < |nodes| && nodes[i].Element? && nodes[i].name == name
    requires forall j :: 0 <= j < i ==> !(nodes[j].Element? && nodes[j].name == name)
    ensures FindFirst(nodes, name) == Some(nodes[i])
    decreases i
  {
    if i > 0 {
      FirstAt(nodes[1..], name, i - 1);
    }
  }

  /** A main-content link is kept when its href is in-page or names the course site. */
  predicate KeepPageLink(href: string) {
    StartsWith(href, "#") || Contains(href, SiteHost)
  }

  /** The kept links of the main content, with their text stripped. Anchors
      without an href are not considered. */
  function PageLinks(anchors: seq<Anchor>): (r: seq<TdsLink>)
    ensures forall k :: 0 <= k < |r| ==> KeepPageLink(r[k].href)
    decreases |anchors|
  {
    if |anchors| == 0 then []
    else
      var a := anchors[0];
      (if a.href.Some? && KeepPageLink(a.href.value) then [TdsLink(Strip(a.text), a.href.value)] else [])
      + PageLinks(anchors[1..])
  }

  /** Anchor `a` yields link `l`: it has `l`'s href, the href passes the
      filter, and `l`'s text is the anchor's stripped text. */
  predicate Yields(a: Anchor, l: TdsLink) {
    a.href == Some(l.href) && KeepPageLink(l.href) && l.text == Strip(a.text)
  }

  /** Exactly the links some anchor yields are kept. */
  lemma {:induction false} PageLinksMembers(anchors: seq<Anchor>, l: TdsLink)
    ensures l in PageLinks(anchors) <==> exists k :: 0 <= k < |anchors| && Yields(anchors[k], l)
    decreases |anchors|
  {
    if |anchors| > 0 {
      var a := anchors[0];
      var head := if a.href.Some? && KeepPageLink(a.href.value) then [TdsLink(Strip(a.text), a.href.value)] else [];
      var rest := PageLinks(anchors[1..]);
      assert PageLinks(anchors) == head + rest;
      assert l in head <==> Yields(a, l);
      PageLinksMembers(anchors[1..], l);
      if l in rest {
        var k :| 0 <= k < |anchors[1..]| && Yields(anchors[1..][k], l);
        assert anchors[k + 1] == anchors[1..][k];
      }
      if exists k :: 0 <= k < |anchors| && Yields(anchors[k], l) {
        var k :| 0 <= k < |anchors| && Yields(anchors[k], l);
        if k > 0 { assert anchors[1..][k - 1] == anchors[k]; }
      }
    }
  }

  /** `scrape_course_content`: None when the page could not be loaded;
      an empty record when it has no main content area; otherwise the
      title of the first h1 (or title), one section per h1-h4 heading with
      that heading's stripped text and tag, and exactly the links some
      anchor of the main area yields. */
  function ScrapeCourseContent(page: Option<Page>): (r: Option<TdsData>)
    ensures r.Some? <==> page.Some?
    ensures r.Some? && page.value.main.None? ==> r.value == TdsData("", [], [])
    ensures r.Some? && page.value.main.Some? ==>
      var m := page.value.main.value;
      && r.value.courseTitle == CourseTitle(m.nodes)
      && |r.value.sections| == HeadingCount(m.nodes) == |HeadingIndices(m.nodes)|
      && (forall k :: 0 <= k < |r.value.sections| ==>
            r.value.sections[k].heading == Strip(m.nodes[HeadingIndices(m.nodes)[k]].text)
            && r.value.sections[k].level == m.nodes[HeadingIndices(m.nodes)[k]].name)
      && (forall l :: l in r.value.links <==> exists k :: 0 <= k < |m.anchors| && Yields(m.anchors[k], l))
  {
    match page
    case None => None
    case Some(p) =>
      match p.main
      case None => Some(TdsData("", [], []))
      case Some(m) =>
        SectionsCount(m.nodes);
        assert forall l :: l in PageLinks(m.anchors) <==> exists k :: 0 <= k < |m.anchors| && Yields(m.anchors[k], l) by {
          forall l ensures l in PageLinks(m.anchors) <==> exists k :: 0 <= k < |m.anchors| && Yields(m.anchors[k], l) {
            PageLinksMembers(m.anchors, l);
          }
        }
        Some(TdsData(CourseTitle(m.nodes), Sections(m.nodes), PageLinks(m.anchors)))
  }

  /** The crawl filter of `get_all_links`: a non-empty href on the site or in-page. */
  predicate KeepNavLink(href: Option<string>) {
    href.Some? && href.value != "" && (StartsWith(href.value, SiteRoot) || StartsWith(href.value, "#"))
  }

  /** An in-page href is made absolute on the site root; an href already on
      the site is kept as it is. */
  function Normalize(href: string): (r: string)
    requires StartsWith(href, SiteRoot) || StartsWith(href, "#")
    ensures StartsWith(r, SiteRoot)
    ensures StartsWith(href, "#") ==> r == SiteRoot + "/" + href
    ensures !StartsWith(href, "#") ==> r == href
  {
    if StartsWith(href, "#") then
      var r := SiteRoot + "/" + href;
      assert r[..|SiteRoot|] == SiteRoot;
      r
    else href
  }

  /** A normalised href is left alone by a second normalisation: it is
      on the site and no longer starts with "#". */
  lemma NormalizeIdempotent(href: string)
    requires StartsWith(href, SiteRoot) || StartsWith(href, "#")
    ensures !StartsWith(Normalize(href), "#")
    ensures Normalize(Normalize(href)) == Normalize(href)
  {
    var r := Normalize(href);
    assert r[0] == SiteRoot[0];
  }

  /** The (href, text) pairs of the kept anchors, in page order, possibly repeated. */
  function NavCandidates(anchors: seq<Anchor>): (r: seq<(string, string)>)
    ensures forall k :: 0 <= k < |r| ==> StartsWith(r[k].0, SiteRoot)
    decreases |anchors|
  {
    if |anchors| == 0 then []
    else
      var a := anchors[0];
      (if KeepNavLink(a.href) then [(Normalize(a.href.value), Strip(a.text))] else [])
      + NavCandidates(anchors[1..])
  }

  /** No element occurs twice. */
  predicate NoDup<T(==)>(s: seq<T>) {
    forall i, j :: 0 <= i < j < |s| ==> s[i] != s[j]
  }

  /** The first occurrence of every element, in order. */
  function Dedup<T(==, !new)>(s: seq<T>): (r: seq<T>)
    ensures NoDup(r)
    ensures forall x :: x in r <==> x in s
    decreases |s|
  {
    if |s| == 0 then []
    else
      var d := Dedup(s[..|s| - 1]);
      assert s == s[..|s| - 1] + [s[|s| - 1]];
      if s[|s| - 1] in d then d else d + [s[|s| - 1]]
  }

  /** `get_all_links`: the distinct (href, text) pairs of the kept anchors,
      with in-page hrefs made absolute. */
  function GetAllLinks(anchors: seq<Anchor>): (r: seq<(string, string)>)
    ensures NoDup(r)
    ensures forall k :: 0 <= k < |r| ==> StartsWith(r[k].0, SiteRoot)
    ensures forall x :: x in r <==> x in NavCandidates(anchors)
  {
    var r := Dedup(NavCandidates(anchors));
    assert forall k :: 0 <= k < |r| ==> r[k] in NavCandidates(anchors);
    r
  }

  /** Exactly the kept anchors contribute a pair, with normalised href and stripped text. */
  lemma {:induction false} NavCandidatesMembers(anchors: seq<Anchor>, x: (string, string))
    ensures x in NavCandidates(anchors) <==>
      exists k :: 0 <= k < |anchors| && KeepNavLink(anchors[k].href)
                  && x == (Normalize(anchors[k].href.value), Strip(anchors[k].text))
    decreases |anchors|
  {
    if |anchors| > 0 {
      NavCandidatesMembers(anchors[1..], x);
      assert forall k :: 1 <= k < |anchors| ==> anchors[k] == anchors[1..][k - 1];
      if exists k :: 0 <= k < |anchors| && KeepNavLink(anchors[k].href)
                     && x == (Normalize(anchors[k].href.value), Strip(anchors[k].text)) {
        var k :| 0 <= k < |anchors| && KeepNavLink(anchors[k].href)
                 && x == (Normalize(anchors[k].href.value), Strip(anchors[k].text));
        if k > 0 { assert anchors[1..][k - 1] == anchors[k]; }
      }
    }
  }

  /** The state of `scrape_all_sections`: pages kept so far, URLs marked
      visited, and the hrefs the link loop has visited, in order. */
  datatype Crawl = Crawl(pages: seq<PageRecord>, visited: set<string>, navigated: seq<string>)

  /** One iteration of the link loop. An href already visited is skipped.
      A failed navigation is skipped without marking it visited. Otherwise
      the page is kept when its scrape has sections, and the href is
      marked visited either way. */
  function Visit(c: Crawl, link: (string, string), load: string -> Option<Page>,
                 reachable: string -> bool): Crawl
  {
    var (href, text) := link;
    if href in c.visited || !reachable(href) then c
    else
      var content := ScrapeCourseContent(load(href));
      var pages :=
        if content.Some? && |content.value.sections| > 0
        then c.pages + [PageRecord(content.value, href, Some(text))]
        else c.pages;
      Crawl(pages, c.visited + {href}, c.navigated + [href])
  }

  function VisitAll(c: Crawl, links: seq<(string, string)>, load: string -> Option<Page>,
                    reachable: string -> bool): Crawl
    decreases |links|
  {
    if |links| == 0 then c else VisitAll(Visit(c, links[0], load, reachable), links[1..], load, reachable)
  }

  /** The crawl before the link loop: the main page, kept without a
      sections check whenever it could be scraped. */
  function StartCrawl(load: string -> Option<Page>): Crawl {
    Initial(ScrapeCourseContent(load(BaseUrl)))
  }

  /** The crawl state once the main page has been scraped (or not). */
  function Initial(main: Option<TdsData>): Crawl {
    match main
    case Some(d) => Crawl([PageRecord(d, BaseUrl, None)], {BaseUrl}, [])
    case None => Crawl([], {}, [])
  }

  /** The anchors `get_all_links` sees: those of the main page (none when it did not load). */
  function MainAnchors(load: string -> Option<Page>): seq<Anchor> {
    match load(BaseUrl)
    case Some(p) => p.anchors
    case None => []
  }

  /** `scrape_all_sections`: `load` is what a navigation to a URL shows and
      `reachable` whether the navigation in the link loop succeeds. */
  function ScrapeAllSections(load: string -> Option<Page>, reachable: string -> bool): Crawl {
    VisitAll(StartCrawl(load), GetAllLinks(MainAnchors(load)), load, reachable)
  }

  function PageUrls(pages: seq<PageRecord>): (r: seq<string>)
    ensures |r| == |pages|
    ensures forall k :: 0 <= k < |r| ==> r[k] == pages[k].url
  {
    seq(|pages|, k requires 0 <= k < |pages| => pages[k].url)
  }

  /** What the crawl maintains: the link loop visits every URL at most once
      (the main page never, once scraped), page URLs are distinct and
      visited, and every page except the main page has sections. */
  ghost predicate CrawlInv(c: Crawl, mainKept: bool) {
    && (forall u :: u in c.visited <==> u in c.navigated || (mainKept && u == BaseUrl))
    && NoDup(c.navigated)
    && (mainKept ==> BaseUrl !in c.navigated)
    && NoDup(PageUrls(c.pages))
    && (forall k :: 0 <= k < |c.pages| ==> c.pages[k].url in c.visited)
    && (forall k :: 0 <= k < |c.pages| && c.pages[k].linkText.Some? ==> |c.pages[k].data.sections| > 0)
  }

  lemma VisitInv(c: Crawl, mainKept: bool, link: (string, string), load: string -> Option<Page>,
                 reachable: string -> bool)
    requires CrawlInv(c, mainKept)
    ensures CrawlInv(Visit(c, link, load, reachable), mainKept)
    ensures Visit(c, link, load, reachable).pages[..|c.pages|] == c.pages
  {
    var (href, text) := link;
    if href !in c.visited && reachable(href) {
      var content := ScrapeCourseContent(load(href));
      var extra :=
        if content.Some? && |content.value.sections| > 0 then [PageRecord(content.value, href, Some(text))] else [];
      assert Visit(c, link, load, reachable) == Crawl(c.pages + extra, c.visited + {href}, c.navigated + [href]);
      StepInv(c, mainKept, href, extra);
    }
  }

  /** Navigating to an unvisited `href` and keeping at most one page for it
      preserves the crawl invariant. */
  lemma StepInv(c: Crawl, mainKept: bool, href: string, extra: seq<PageRecord>)
    requires CrawlInv(c, mainKept) && href !in c.visited && |extra| <= 1
    requires forall e :: e in extra ==> e.url == href && (e.linkText.Some? ==> |e.data.sections| > 0)
    ensures CrawlInv(Crawl(c.pages + extra, c.visited + {href}, c.navigated + [href]), mainKept)
    ensures (c.pages + extra)[..|c.pages|] == c.pages
  {
    var c' := Crawl(c.pages + extra, c.visited + {href}, c.navigated + [href]);
    assert forall u :: u in c'.navigated <==> u in c.navigated || u == href;
    assert href !in c.navigated;
    assert forall k :: 0 <= k < |c.pages| ==> c.pages[k].url != href;
    assert PageUrls(c'.pages)[..|c.pages|] == PageUrls(c.pages);
    if |extra| == 1 {
      assert extra[0] in extra;
    }
  }

  lemma {:induction false} VisitAllInv(c: Crawl, mainKept: bool, links: seq<(string, string)>,
                                       load: string -> Option<Page>, reachable: string -> bool)
    requires CrawlInv(c, mainKept)
    ensures CrawlInv(VisitAll(c, links, load, reachable), mainKept)
    ensures |c.pages| <= |VisitAll(c, links, load, reachable).pages|
    ensures VisitAll(c, links, load, reachable).pages[..|c.pages|] == c.pages
    decreases |links|
  {
    if |links| > 0 {
      var c1 := Visit(c, links[0], load, reachable);
      VisitInv(c, mainKept, links[0], load, reachable);
      VisitAllInv(c1, mainKept, links[1..], load, reachable);
      var c2 := VisitAll(c1, links[1..], load, reachable);
      assert c2.pages[..|c.pages|] == c2.pages[..|c1.pages|][..|c.pages|];
    }
  }

  /** The link loop visits no href twice and never revisits a scraped main
      page; the crawl keeps no page twice, keeps the main page first
      whenever it could be scraped, and keeps no other page without sections. */
  lemma CrawlProperties(load: string -> Option<Page>, reachable: string -> bool)
    ensures var c := ScrapeAllSections(load, reachable);
      var mainKept := ScrapeCourseContent(load(BaseUrl)).Some?;
      && NoDup(c.navigated)
      && (mainKept ==> BaseUrl !in c.navigated)
      && NoDup(PageUrls(c.pages))
      && (mainKept ==> |c.pages| > 0 && c.pages[0] == PageRecord(ScrapeCourseContent(load(BaseUrl)).value, BaseUrl, None))
      && (forall k :: 0 <= k < |c.pages| && c.pages[k].linkText.Some? ==> |c.pages[k].data.sections| > 0)
  {
    var main := ScrapeCourseContent(load(BaseUrl));
    var c0 := Initial(main);
    var links := GetAllLinks(MainAnchors(load));
    InitialInv(main);
    VisitAllInv(c0, main.Some?, links, load, reachable);
    var c := VisitAll(c0, links, load, reachable);
    assert ScrapeAllSections(load, reachable) == c;
    if main.Some? {
      assert c.pages[0] == c.pages[..|c0.pages|][0] == c0.pages[0];
    }
  }

  /** The starting state satisfies the crawl invariant. */
  lemma InitialInv(main: Option<TdsData>)
    ensures CrawlInv(Initial(main), main.Some?)
  {
    if main.Some? {
      assert PageUrls(Initial(main).pages) == [BaseUrl];
    }
  }

  /** A navigation to `u` scrapes a page that has sections. */
  predicate Scrapes(load: string -> Option<Page>, u: string) {
    ScrapeCourseContent(load(u)).Some? && |ScrapeCourseContent(load(u)).value.sections| > 0
  }

  /** Some kept page has URL `u`. */
  predicate HasPage(pages: seq<PageRecord>, u: string) {
    exists k :: 0 <= k < |pages| && pages[k].url == u
  }

  /** Every visited URL whose scrape has sections has a kept page. */
  predicate PagesComplete(c: Crawl, load: string -> Option<Page>) {
    forall u :: u in c.visited && Scrapes(load, u) ==> HasPage(c.pages, u)
  }

  /** One loop step visits its href when the navigation succeeds, forgets
      no visited URL, and keeps a page for the href when it has sections. */
  lemma VisitComplete(c: Crawl, link: (string, string), load: string -> Option<Page>,
                      reachable: string -> bool)
    requires PagesComplete(c, load)
    ensures PagesComplete(Visit(c, link, load, reachable), load)
    ensures c.visited <= Visit(c, link, load, reachable).visited
    ensures reachable(link.0) ==> link.0 in Visit(c, link, load, reachable).visited
  {
    var (href, text) := link;
    var c' := Visit(c, link, load, reachable);
    if href !in c.visited && reachable(href) {
      assert c'.pages[..|c.pages|] == c.pages;
      forall u | u in c'.visited && Scrapes(load, u) ensures HasPage(c'.pages, u) {
        if u == href {
          assert c'.pages[|c.pages|].url == href;
        } else {
          var k :| 0 <= k < |c.pages| && c.pages[k].url == u;
          assert c'.pages[k] == c.pages[k];
        }
      }
    }
  }

  /** The link loop visits every href whose navigation succeeds and keeps
      a page for every visited URL whose scrape has sections. */
  lemma {:induction false} VisitAllComplete(c: Crawl, links: seq<(string, string)>,
                                            load: string -> Option<Page>, reachable: string -> bool)
    requires PagesComplete(c, load)
    ensures PagesComplete(VisitAll(c, links, load, reachable), load)
    ensures c.visited <= VisitAll(c, links, load, reachable).visited
    ensures forall k :: 0 <= k < |links| && reachable(links[k].0) ==>
      links[k].0 in VisitAll(c, links, load, reachable).visited
    decreases |links|
  {
    if |links| > 0 {
      var c1 := Visit(c, links[0], load, reachable);
      VisitComplete(c, links[0], load, reachable);
      VisitAllComplete(c1, links[1..], load, reachable);
      assert forall k :: 1 <= k < |links| ==> links[k] == links[1..][k - 1];
    }
  }

  /** Every link of the main page whose navigation succeeds is visited, and
      every such link whose page has sections is kept as a page (the main
      page's own URL by the main page itself). */
  lemma CrawlReachesLinks(load: string -> Option<Page>, reachable: string -> bool)
    ensures var c, links := ScrapeAllSections(load, reachable), GetAllLinks(MainAnchors(load));
      && (forall k :: 0 <= k < |links| && reachable(links[k].0) ==> links[k].0 in c.visited)
      && (forall k :: 0 <= k < |links| && reachable(links[k].0) && Scrapes(load, links[k].0) ==>
            HasPage(c.pages, links[k].0))
  {
    var main := ScrapeCourseContent(load(BaseUrl));
    var c0 := Initial(main);
    if main.Some? {
      assert c0.pages[0].url == BaseUrl;
    }
    assert PagesComplete(c0, load);
    VisitAllComplete(c0, GetAllLinks(MainAnchors(load)), load, reachable);
  }

  /** A navigation keeps a page exactly when the page loads, has a main
      area, and that area has at least one h1-h4 heading. */
  lemma ScrapesIffHeading(load: string -> Option<Page>, u: string)
    ensures Scrapes(load, u) <==>
      load(u).Some? && load(u).value.main.Some? && HeadingCount(load(u).value.main.value.nodes) > 0
  {
  }

  /** The hrefs of `links`. */
  function Hrefs(links: seq<(string, string)>): set<string> {
    set l | l in links :: l.0
  }

  /** Everything the link loop did came from `all`: every href it visited is
      the href of a link, and every page reached by a link carries that
      link's href and text. */
  predicate FromLinks(c: Crawl, all: seq<(string, string)>) {
    && (forall u :: u in c.navigated ==> u in Hrefs(all))
    && (forall k :: 0 <= k < |c.pages| && c.pages[k].linkText.Some? ==>
          (c.pages[k].url, c.pages[k].linkText.value) in all)
  }

  /** One loop step over a link of `all` only visits and keeps that link. */
  lemma VisitSound(c: Crawl, link: (string, string), load: string -> Option<Page>,
                   reachable: string -> bool, all: seq<(string, string)>)
    requires FromLinks(c, all) && link in all
    ensures FromLinks(Visit(c, link, load, reachable), all)
  {
    var c' := Visit(c, link, load, reachable);
    if link.0 !in c.visited && reachable(link.0) {
      assert link.0 in Hrefs(all);
      forall k | 0 <= k < |c'.pages| && c'.pages[k].linkText.Some?
        ensures (c'.pages[k].url, c'.pages[k].linkText.value) in all
      {
        if k < |c.pages| { assert c'.pages[k] == c.pages[k]; }
        else { assert (c'.pages[k].url, c'.pages[k].linkText.value) == link; }
      }
    }
  }

  /** The link loop over links of `all` only visits and keeps links of `all`. */
  lemma {:induction false} VisitAllSound(c: Crawl, links: seq<(string, string)>, load: string -> Option<Page>,
                                         reachable: string -> bool, all: seq<(string, string)>)
    requires FromLinks(c, all)
    requires forall k :: 0 <= k < |links| ==> links[k] in all
    ensures FromLinks(VisitAll(c, links, load, reachable), all)
    decreases |links|
  {
    if |links| > 0 {
      VisitSound(c, links[0], load, reachable, all);
      VisitAllSound(Visit(c, links[0], load, reachable), links[1..], load, reachable, all);
    }
  }

  /** The crawl goes nowhere but the main page's links: every href the link
      loop visits is one of them, and every page other than the main page
      carries the href and text of one of them. */
  lemma CrawlOnlyLinks(load: string -> Option<Page>, reachable: string -> bool)
    ensures var c, links := ScrapeAllSections(load, reachable), GetAllLinks(MainAnchors(load));
      && (forall u :: u in c.navigated ==> exists k :: 0 <= k < |links| && links[k].0 == u)
      && (forall k :: 0 <= k < |c.pages| && c.pages[k].linkText.Some? ==>
            (c.pages[k].url, c.pages[k].linkText.value) in links)
  {
    var links := GetAllLinks(MainAnchors(load));
    var c0 := Initial(ScrapeCourseContent(load(BaseUrl)));
    assert FromLinks(c0, links);
    VisitAllSound(c0, links, load, reachable, links);
    var c := ScrapeAllSections(load, reachable);
    forall u | u in c.navigated ensures exists k :: 0 <= k < |links| && links[k].0 == u {
      var l :| l in links && l.0 == u;
    }
  }
}

=== FILE: Text.dfy ===
/** Python string operations the pipeline relies on: `str.strip`, `str.join`,
    `str.split`, `str.startswith`, substring `in`, and `str(int)`. */
module Text {

  /** Python's `str.isspace` for one character: the set `str.strip()` removes. */
  predicate IsSpace(c: char) {
    var n := c as int;
    || 0x09 <= n <= 0x0D
    || 0x1C <= n <= 0x20
    || n == 0x85 || n == 0xA0 || n == 0x1680
    || 0x2000 <= n <= 0x200A
    || n == 0x2028 || n == 0x2029 || n == 0x202F || n == 0x205F || n == 0x3000
  }

  /** Every character is whitespace (vacuously true of ""). */
  predicate AllSpace(s: string) {
    forall i :: 0 <= i < |s| ==> IsSpace(s[i])
  }

  /** Neither end of `s` is whitespace: what `strip()` leaves. */
  predicate IsStripped(s: string) {
    |s| == 0 || (!IsSpace(s[0]) && !IsSpace(s[|s| - 1]))
  }

  /** Number of leading whitespace characters, a maximal run. */
  function LeadCount(s: string): (k: nat)
    ensures k <= |s|
    ensures AllSpace(s[..k])
    ensures k < |s| ==> !IsSpace(s[k])
    decreases |s|
  {
    if |s| > 0 && IsSpace(s[0]) then
      var k' := LeadCount(s[1..]);
      assert s[1..][..k'] == s[1..k' + 1];
      1 + k'
    else 0
  }

  /** Number of trailing whitespace characters, a maximal run. */
  function TrailCount(s: string): (k: nat)
    ensures k <= |s|
    ensures AllSpace(s[|s| - k..])
    ensures k < |s| ==> !IsSpace(s[|s| - 1 - k])
    decreases |s|
  {
    if |s| > 0 && IsSpace(s[|s| - 1]) then
      var u := s[..|s| - 1];
      var k' := TrailCount(u);
      assert s[|s| - 1 - k'..] == u[|u| - k'..] + [s[|s| - 1]];
      AppendAllSpace(u[|u| - k'..], [s[|s| - 1]]);
      assert k' < |u| ==> s[|s| - 2 - k'] == u[|u| - 1 - k'];
      1 + k'
    else 0
  }

  /** Python's `s.strip()`: `s` with its maximal whitespace prefix and suffix removed. */
  function Strip(s: string): (r: string)
    ensures IsStripped(r)
    ensures |r| == 0 <==> AllSpace(s)
  {
    var a := LeadCount(s);
    var t := s[a..];
    var b := TrailCount(t);
    var r := t[..|t| - b];
    assert s[a..a + |r|] == r;
    assert s[a + |r|..] == t[|t| - b..];
    assert IsStripped(r) by {
      if |r| > 0 {
        assert r[0] == s[a] && r[|r| - 1] == t[|t| - 1 - b];
      }
    }
    assert |r| == 0 ==> AllSpace(s) by {
      if |r| == 0 {
        assert t[|t| - b..] == t;
        assert s == s[..a] + t;
        AppendAllSpace(s[..a], t);
      }
    }
    assert AllSpace(s) ==> a == |s|;
    r
  }

  /** `strip()` removes only whitespace: its result sits inside `s` between
      an all-whitespace prefix and an all-whitespace suffix. */
  lemma StripIsInfix(s: string)
    ensures var r := Strip(s);
      exists a :: 0 <= a <= |s| - |r| && s[a..a + |r|] == r
                  && AllSpace(s[..a]) && AllSpace(s[a + |r|..])
  {
    var a := LeadCount(s);
    var t := s[a..];
    var b := TrailCount(t);
    var r := t[..|t| - b];
    assert Strip(s) == r;
    assert s[a..a + |r|] == r;
    assert s[a + |r|..] == t[|t| - b..];
    assert 0 <= a <= |s| - |r| && s[a..a + |r|] == r && AllSpace(s[..a]) && AllSpace(s[a + |r|..]);
  }

  /** Python's `sep.join(xs)`. */
  function Join(sep: string, xs: seq<string>): string
    decreases |xs|
  {
    if |xs| == 0 then ""
    else if |xs| == 1 then xs[0]
    else xs[0] + sep + Join(sep, xs[1..])
  }

  /** The concatenation of all `xs` (Python's `"".join(xs)`). */
  function Concat(xs: seq<string>): string
    decreases |xs|
  {
    if |xs| == 0 then "" else xs[0] + Concat(xs[1..])
  }

  /** Python's `s.split(c)` for a one-character separator. */
  function Split(s: string, c: char): (r: seq<string>)
    ensures |r| > 0
    decreases |s|
  {
    if |s| == 0 then [""]
    else if s[0] == c then [""] + Split(s[1..], c)
    else
      var rest := Split(s[1..], c);
      [[s[0]] + rest[0]] + rest[1..]
  }

  /** Python's `s.startswith(p)`. */
  predicate StartsWith(s: string, p: string) {
    |p| <= |s| && s[..|p|] == p
  }

  /** Python's `sub in s`. */
  predicate Contains(s: string, sub: string)
    decreases |s|
  {
    StartsWith(s, sub) || (|s| > 0 && Contains(s[1..], sub))
  }

  /** A string occurs in any string that has it between a prefix and a suffix. */
  lemma {:induction false} ContainsInfix(a: string, sub: string, b: string)
    ensures Contains(a + sub + b, sub)
    decreases |a|
  {
    if |a| == 0 {
      assert (a + sub + b)[..|sub|] == sub;
    } else {
      ContainsInfix(a[1..], sub, b);
      assert (a + sub + b)[1..] == a[1..] + sub + b;
    }
  }

  predicate IsDigit(c: char) {
    '0' <= c <= '9'
  }

  function DigitChar(d: nat): (c: char)
    requires d < 10
    ensures IsDigit(c) && c as int - '0' as int == d
  {
    ('0' as int + d) as char
  }

  /** Decimal digits of `n` without leading zeros (Python's `str(n)` for `n >= 0`). */
  function NatToString(n: nat): (r: string)
    ensures |r| > 0
    ensures forall i :: 0 <= i < |r| ==> IsDigit(r[i])
    decreases n
  {
    if n < 10 then [DigitChar(n)] else NatToString(n / 10) + [DigitChar(n % 10)]
  }

  /** Python's `str(i)` for an integer. */
  function IntToString(i: int): string {
    if i < 0 then "-" + NatToString(-i) else NatToString(i)
  }

  /** The value of a string of decimal digits. */
  function ParseDigits(s: string): nat
    requires forall i :: 0 <= i < |s| ==> IsDigit(s[i])
    decreases |s|
  {
    if |s| == 0 then 0
    else
      var d := s[|s| - 1] as int - '0' as int;
      assert IsDigit(s[|s| - 1]);
      ParseDigits(s[..|s| - 1]) * 10 + d
  }

  /** Parsing the decimal rendering of a number gives the number back. */
  lemma {:induction false} ParseNatToString(n: nat)
    ensures ParseDigits(NatToString(n)) == n
    decreases n
  {
    if n >= 10 {
      var s := NatToString(n);
      assert s[..|s| - 1] == NatToString(n / 10);
      ParseNatToString(n / 10);
    }
  }

  /** Distinct integers render as distinct strings. */
  lemma IntToStringInjective(i: int, j: int)
    requires IntToString(i) == IntToString(j)
    ensures i == j
  {
    var s := IntToString(i);
    assert (s[0] == '-') == (i < 0) == (j < 0);
    if i < 0 {
      assert NatToString(-i) == s[1..] == NatToString(-j);
      ParseNatToString(-i);
      ParseNatToString(-j);
    } else {
      ParseNatToString(i);
      ParseNatToString(j);
    }
  }

  /** `sep.join` of a non-empty list, split back on a one-character
      separator that occurs in no item, gives the list back. */
  lemma {:induction false} SplitJoin(xs: seq<string>, c: char)
    requires |xs| > 0
    requires forall k :: 0 <= k < |xs| ==> c !in xs[k]
    ensures Split(Join([c], xs), c) == xs
    decreases |xs|
  {
    if |xs| == 1 {
      SplitNoSep(xs[0], c);
    } else {
      SplitJoin(xs[1..], c);
      SplitPrefix(xs[0], [c] + Join([c], xs[1..]), c);
      assert xs[0] + [c] + Join([c], xs[1..]) == xs[0] + ([c] + Join([c], xs[1..]));
      assert [xs[0]] + xs[1..] == xs;
    }
  }

  /** A string without the separator splits into itself alone. */
  lemma {:induction false} SplitNoSep(s: string, c: char)
    requires c !in s
    ensures Split(s, c) == [s]
    decreases |s|
  {
    if |s| > 0 {
      assert c !in s[1..] by { assert forall k :: 0 <= k < |s| - 1 ==> s[1..][k] == s[k + 1]; }
      SplitNoSep(s[1..], c);
      assert [s[0]] + s[1..] == s;
    }
  }

  /** Splitting `a + [c] + rest`, where `a` has no separator, yields `a`
      followed by the split of `rest`. */
  lemma {:induction false} SplitPrefix(a: string, t: string, c: char)
    requires c !in a
    requires |t| > 0 && t[0] == c
    ensures Split(a + t, c) == [a] + Split(t[1..], c)
    decreases |a|
  {
    if |a| == 0 {
      assert a + t == t;
    } else {
      assert c !in a[1..] by { assert forall k :: 0 <= k < |a| - 1 ==> a[1..][k] == a[k + 1]; }
      SplitPrefix(a[1..], t, c);
      assert (a + t)[1..] == a[1..] + t;
      assert [a[0]] + a[1..] == a;
    }
  }

  /** A join of items is all whitespace exactly when the separator is
      (or there is at most one item) and every item is. */
  lemma {:induction false} JoinAllSpace(sep: string, xs: seq<string>)
    requires AllSpace(sep)
    ensures AllSpace(Join(sep, xs)) <==> forall k :: 0 <= k < |xs| ==> AllSpace(xs[k])
    decreases |xs|
  {
    if |xs| > 1 {
      JoinAllSpace(sep, xs[1..]);
      AppendAllSpace(xs[0], sep);
      AppendAllSpace(xs[0] + sep, Join(sep, xs[1..]));
      assert forall k :: 1 <= k < |xs| ==> xs[1..][k - 1] == xs[k];
    }
  }

  /** A concatenation is all whitespace exactly when both parts are. */
  lemma AppendAllSpace(a: string, b: string)
    ensures AllSpace(a + b) <==> AllSpace(a) && AllSpace(b)
  {
    if AllSpace(a + b) {
      assert forall i :: 0 <= i < |a| ==> (a + b)[i] == a[i];
      assert forall i :: 0 <= i < |b| ==> (a + b)[|a| + i] == b[i];
    }
  }
}

=== FILE: Wrappers.dfy ===
/** Option and Result, the two failure-carrying shapes the rest of the model uses. */
module Wrappers {

  /** A value that may be absent: a missing key, a JSON null, a Python None. */
  datatype Option<+T> = None | Some(value: T) {

    /** The value, or `default` when absent (Python's `d.get(key, default)`). */
    function GetOr(default: T): T {
      match this
      case Some(v) => v
      case None => default
    }
  }

  /** The outcome of an operation that can raise. */
  datatype Result<+T, +E> = Ok(value: T) | Err(error: E)
}
